=== FILE: README.md ===
# Speed test and rooftop shooter, modelled in Dafny

The repository holds two unrelated browser scripts. This project models the logic under
each of them as pure Dafny functions over immutable records and proves properties of it.

**Speed test** (`script/speedtest.js`). The page downloads from several endpoints in
parallel. Every progress notification overwrites that endpoint's byte counter, but only
when the notification reports a positive byte count. Once some time has elapsed, the
notification also appends one sample: the sum of all counters converted to binary megabits
per second (divisor 1048576). The final figure is the median of all samples, and zero when
there are none. The ping figure is the rounded mean of the attempts' times, with 999 ms
charged for each failed attempt. Everything is exact `real` arithmetic. Network events
arrive as a sequence of `(endpoint, bytes loaded, seconds elapsed)` notifications, and
ping results as a sequence of attempt outcomes.

- `Sorting`: a reference insertion sort and uniqueness of sorted permutations.
- `SpeedTest`: the median reducer, the progress handler, replay of a notification
  sequence, the download loop and the ping average.

**Rooftop shooter** (`Games/rooftop-shooter.js`). Below the canvas drawing there is a small
integer state machine, which this project models:
- timed abilities: double shot, rapid fire (which swaps the fire interval 200 → 100 ms)
  and shield;
- player hit points with shield blocking;
- drone kills, which feed the score and the kill counter;
- the high score;
- fire-rate gating;
- the spawn schedule with its 600 ms floor, and the wave counter;
- the reset that starts a new game;
- the per-frame sweeps that update every bullet, drone and power-up and then remove the
  inactive ones.

Difficulty is kept in integer hundredths (1.00 is 100, +0.02 is +2), so the wave is
hundredths / 10. Times are integer milliseconds and a frame is 16 ms, as in the source.
The clock, random draws and results of trigonometry are inputs:
- `Date.now`;
- spawn positions and velocities;
- whether a drone drops a power-up, and its kind;
- bullet muzzle positions and velocities;
- the sine used for bobbing.

Hit tests compare squared distances with squared radius sums. Over exact reals this decides
the same as the source's square-root comparisons.

- `Abilities`: ability records, activation and expiry, the loadout invariant.
- `Entities`: player hit points, bullets and their five-position trail, drones,
  power-ups.
- `Sweep`: the reference meaning of "update, then splice out the inactive" (`Filter` over
  `MapSeq`). It also holds the in-place backwards splice loop, proved equal to that reference.
- `Game`: the game record and its single steps.
- `GameLoop`: one frame of the game loop.
- `Session`: runs of events (frames, trigger press and release, new game) and the
  invariants every reached state keeps.
- `Options`: an optional value.

Quirks of the code that the model keeps as written:
- The wave counter starts at 1 and jumps to 10 at the first spawn, because it follows
  `floor(difficulty * 10)` and the difficulty starts at 1.00.
- `initGame` does not reset the spawn timer. Its only initialisation is at page load, so a
  new game's first drone can come early. `InitGame` keeps `spawnTimer`, and the invariant
  `0 <= spawnTimer <= spawnInterval` still holds.
- `initGame` does not reset the shooting accumulator either.
- A bullet that has already hit a drone this frame stays in the bullet list until the next
  frame's bullet sweep. The collision scan does not check whether a bullet is active, so
  such a bullet can still hit another drone in the same frame (`LastHit`).

The download phase of `script/speedtest.js` is a single parallel download. Each sample is
the live aggregate over all endpoints at the moment of a notification, the median runs over
those samples, and the divisor is 1024 × 1024.

## Model

| member | source | states |
|---|---|---|
| `Sorting.Sort` | script/speedtest.js:109 | the sort step yields an ascending permutation (same multiset) of the samples |
| `Sorting.SortedUnique` | script/speedtest.js:109 | two ascending sequences with the same multiset are equal, so "the sorted samples" is well defined |
| `SpeedTest.StableSpeed` | script/speedtest.js:107-108 | no samples give the sentinel zero |
| `SpeedTest.MedianOfSortedPermutation` | script/speedtest.js:109-111 | for any ascending arrangement of the samples, the result is its element at index ⌊n/2⌋ for an odd count and the mean of elements n/2−1 and n/2 for an even count |
| `SpeedTest.MedianIsSampleWhenOdd` | script/speedtest.js:110-111 | for an odd count the result is one of the samples |
| `SpeedTest.MedianWithinRange` | script/speedtest.js:109-111 | for a non-empty input the result lies between the minimum and the maximum sample |
| `SpeedTest.MedianIgnoresOrder` | script/speedtest.js:109 | two sample lists with the same multiset have the same median, whatever the arrival order |
| `SpeedTest.MedianOfOne` | script/speedtest.js:110-111 | [5] gives 5 |
| `SpeedTest.MedianOfTwo` | script/speedtest.js:111 | [8, 2] gives 5 |
| `SpeedTest.MedianOfThree` | script/speedtest.js:110-111 | [5, 1, 3] gives 3 |
| `SpeedTest.Mbps` | script/speedtest.js:82 | the sample times elapsed seconds times 1048576 equals the bytes times 8; the sample is never negative |
| `SpeedTest.MbpsFixture` | script/speedtest.js:82 | 10485760 bytes over 2 s is 40 Mbit/s |
| `SpeedTest.StartDownload` | script/speedtest.js:66-68 | one zero counter per endpoint, no samples |
| `SpeedTest.OnProgress` | script/speedtest.js:75-89 | counter count unchanged; only slot `idx` can change, and only when `loaded > 0`; exactly one sample is appended when `elapsed > 0` and none otherwise; earlier samples stay in place |
| `SpeedTest.Replay` | script/speedtest.js:68-90 | a notification sequence never changes the number of counters |
| `SpeedTest.ReplayAppendsSamples` | script/speedtest.js:79-85 | after any notification sequence there is one new sample per notification with positive elapsed time, and the earlier samples are an untouched prefix |
| `SpeedTest.ReplayCounterIsLatest` | script/speedtest.js:76-78 | an endpoint's counter equals the byte count of its latest notification with a positive count |
| `SpeedTest.ReplayCounterUntouched` | script/speedtest.js:68-78 | an endpoint with no positive notification keeps its starting counter (zero at the start) |
| `SpeedTest.RunParallelDownload` | script/speedtest.js:65-102 | the handler loop yields one counter per endpoint, as many samples as timed notifications, all non-negative, and agrees with the replayed state |
| `SpeedTest.RoundHalfUp` | script/speedtest.js:143 | `Math.round`: the result is the integer within half a unit of the input, ties going up |
| `SpeedTest.PingTest` | script/speedtest.js:130-144 | exactly one time is recorded per attempt; a failed attempt records 999 and a reply its round trip; the result is the rounded mean; no attempts give no number |
| `SpeedTest.AllFailedPingIs999` | script/speedtest.js:138-143 | when every attempt fails, the ping figure is 999 |
| `Abilities.ResetLoadout` | Games/rooftop-shooter.js:721-728 | a new game has every ability off and the default fire interval, which satisfies the loadout invariant |
| `Abilities.ActivateDoubleShot` | Games/rooftop-shooter.js:226-230 | double shot on with 10000 ms; the other abilities and the fire interval are untouched; the loadout invariant is kept |
| `Abilities.ActivateRapidFire` | Games/rooftop-shooter.js:232-237 | rapid fire on with 8000 ms and the fire interval becomes 100; the other abilities are untouched; the invariant is kept |
| `Abilities.ActivateShield` | Games/rooftop-shooter.js:245-249 | shield on with 15000 ms; the other abilities and the fire interval are untouched; the invariant is kept |
| `Abilities.Tick` | Games/rooftop-shooter.js:253-256 | an inactive ability is untouched; an active one loses `dt` and stays active exactly when time remains |
| `Abilities.UpdateAbilities` | Games/rooftop-shooter.js:251-264 | every ability's clock runs; the fire interval returns to 200 exactly when rapid fire expires in this call; the invariant "interval is 100 iff rapid fire is active, active timers are positive" is kept |
| `Abilities.ActiveForItsDuration` | Games/rooftop-shooter.js:251-264 | an ability activated with duration d stays active, timer d − k·dt, for exactly the frames k with k·dt < d, and is off from then on |
| `Abilities.RapidFireLasts500Frames` | Games/rooftop-shooter.js:251-264 | with 16 ms frames rapid fire is active for 500 frames, not 501 |
| `Entities.NewPlayer` | Games/rooftop-shooter.js:346-348 | a new player has full health (100 of 100) and no shot yet |
| `Entities.Hurt` | Games/rooftop-shooter.js:400-411 | with the shield up hit points are unchanged; otherwise they drop by the amount and are floored at 0, reaching 0 exactly on a fatal hit; 0 ≤ hp ≤ maxHp is kept |
| `Entities.Heal` | Games/rooftop-shooter.js:416-419 | hit points become hp + amount when that is at most the maximum, and the maximum otherwise; 0 ≤ hp ≤ maxHp is kept |
| `Entities.PushTrail` | Games/rooftop-shooter.js:435-436 | the trail always ends with the newest position; a trail of at most five stays at most five and is the last five of the old trail plus the new position |
| `Entities.TrailIsRecentHistory` | Games/rooftop-shooter.js:435-436 | a trail started empty holds exactly the five most recent positions recorded, oldest first |
| `Entities.UpdateBullet` | Games/rooftop-shooter.js:433-444 | the old position enters the trail, the bullet moves by its velocity, and it stays active only while inside the canvas |
| `Entities.NewEnemy` | Games/rooftop-shooter.js:475-477 | a drone starts active with one hit point |
| `Entities.Wound` | Games/rooftop-shooter.js:511-513 | one hit point less; the drone goes down exactly when that leaves it at 0 or below; position, velocity and drop are unchanged |
| `Sweep.MapSeq` | Games/rooftop-shooter.js:778-779 | each entity is updated in place, none added or dropped |
| `Sweep.Filter` | Games/rooftop-shooter.js:778-781 | every survivor is alive and the list never grows |
| `Sweep.FilterMembers` | Games/rooftop-shooter.js:778-781 | every survivor comes from the list, and every alive entry survives |
| `Sweep.FilterConcat` | Games/rooftop-shooter.js:778-819 | sweeping a concatenation is concatenating the sweeps, so survivors keep their relative order |
| `Sweep.FilterKeepsAllAlive` | Games/rooftop-shooter.js:778-819 | a sweep over entries that are all alive removes nothing |
| `Sweep.FilterCounts` | Games/rooftop-shooter.js:778-819 | exactly the inactive entries go: an alive entry keeps its multiplicity, an inactive one drops to zero |
| `Sweep.FilterIdempotent` | Games/rooftop-shooter.js:778-819 | a second sweep removes nothing more |
| `Sweep.SweepInPlace` | Games/rooftop-shooter.js:778-781 | the backwards update-and-splice loop leaves exactly the alive updated entries, in their original order |
| `Game.CheckAndUpdateHighScore` | Games/rooftop-shooter.js:590-598 | reports a new record iff score > high score; the high score becomes the larger of the two |
| `Game.EndGame` | Games/rooftop-shooter.js:323-338 | the game stops, the high score is updated and one more mission is counted; nothing else changes |
| `Game.GameOverShowsThisGamesKills` | Games/rooftop-shooter.js:329 | when the score is 100 × the kills since the game began, it is a multiple of 100 and the game-over kill count equals those kills |
| `Game.PlayerDamageAsWritten` | Games/rooftop-shooter.js:400-414 | a fatal hit stops the game, updates the high score and counts a mission, whether or not the game had already ended; a non-fatal hit changes only the player's hit points |
| `Game.DoubleGameOverAsWritten` | Games/rooftop-shooter.js:400-414 | two 20-point hits on a 20-hp player in one frame count two missions |
| `Game.PlayerDamage` | Games/rooftop-shooter.js:400-414 | as `Entities.Hurt` for hit points; a fatal hit ends a running game and updates the high score through `Game.CheckAndUpdateHighScore`, and otherwise the high score is unchanged; at most one mission is counted; score and kills are unchanged; the invariants are kept |
| `Game.DoubleHitCountsOneMission` | Games/rooftop-shooter.js:400-414 | with the guard, the same two hits count one mission |
| `Game.ApplyHealthBoost` | Games/rooftop-shooter.js:239-243 | health boost heals 30 capped at the maximum and changes nothing else |
| `Game.EnemyTakeDamage` | Games/rooftop-shooter.js:510-524 | a kill adds exactly 100 to the score and 1 to the kill counter and appends the carried power-up; a non-fatal hit changes no game state; score − 100 × kills is preserved |
| `Game.CollectPowerUp` | Games/rooftop-shooter.js:177-198 | the power-up goes inactive, is counted once, and applies its kind's ability; the invariants are kept |
| `Game.ShotBullets` | Games/rooftop-shooter.js:652-658 | with double shot, two fresh bullets on the left (−8) and right (+8) aims, in that order; otherwise one fresh bullet on the straight aim |
| `Game.Shoot` | Games/rooftop-shooter.js:630-661 | nothing changes before the fire interval has passed; otherwise the shot time is recorded and the existing bullets are followed by exactly the bullets `Game.ShotBullets` gives for the current loadout |
| `Game.ShotsAreSpaced` | Games/rooftop-shooter.js:630-647 | once a shot has gone off, a later call changes anything only if at least one fire interval has passed |
| `Game.UpdateShooting` | Games/rooftop-shooter.js:620-628 | with the trigger up nothing changes; the accumulator grows by the frame time and a shot is attempted, with the accumulator reset, only once it reaches the fire interval |
| `Game.PointerDown` | Games/rooftop-shooter.js:664-673 | ignored when no game runs; otherwise the trigger is held and a shot attempted |
| `Game.PointerUp` | Games/rooftop-shooter.js:610-613 | the trigger is released and nothing else changes |
| `Game.SpawnStep` | Games/rooftop-shooter.js:760-775 | a drone is added, exactly one, only when the timer strictly exceeds the interval, and the timer then restarts at 0; the interval drops by 20 only while above 600; difficulty +0.02; the wave never decreases; the schedule and wave invariants are kept |
| `Game.InitGame` | Games/rooftop-shooter.js:710-744 | a running game at score 0, wave 1, difficulty 1.00, spawn interval 1500, full health, no entities and all abilities off; the high score, statistics, shooting accumulator and spawn timer carry over; the score then tracks this game's kills and the invariant holds |
| `GameLoop.LastHit` | Games/rooftop-shooter.js:788-800 | the collision scan finds the highest-indexed bullet on the drone, or reports that none touches it |
| `GameLoop.EnemyUpdate` | Games/rooftop-shooter.js:491-508 | the drone moves by its velocity and stays active exactly when it was active and reaches neither the player (above player y − 40, within 60 sideways) nor the ground (below the canvas); reaching the player costs 20 hit points, the ground 10, both costs 20 then 10, neither leaves the game unchanged; no scoring; at most one mission |
| `GameLoop.ProcessEnemy` | Games/rooftop-shooter.js:784-802 | after the drone moves, no touching bullet leaves the state as the move left it; otherwise the highest-indexed touching bullet is spent, every other bullet is unchanged, the drone is wounded and the kill is scored as `Game.EnemyTakeDamage` does; power-ups are only appended, and live |
| `GameLoop.Strike` | Games/rooftop-shooter.js:795-798 | the drone is wounded as `Entities.Wound` says, bullet `j` goes inactive, every other bullet is unchanged, and the game changes as `Game.EnemyTakeDamage` says |
| `GameLoop.EnemyPass` | Games/rooftop-shooter.js:784-803 | over the whole drone list: drone `i` comes out as `GameLoop.DroneAfter` of the bullets at the start of the pass (moved, deactivated on reaching the player or ground, wounded if some bullet touches it); bullets change only in whether they are active; score paired with kills, at most one mission counted, wave unchanged |
| `GameLoop.LastHitSame` | Games/rooftop-shooter.js:788-800 | the collision scan gives the same answer on two bullet lists with bullets at the same places, whatever their active flags |
| `GameLoop.ProcessEnemyIsDroneAfter` | Games/rooftop-shooter.js:784-800 | processing a drone leaves it as the reference `GameLoop.DroneAfter` says: moved, active unless it reached the player or the ground, wounded when some bullet touches its new position |
| `GameLoop.DroneAfterSamePlaces` | Games/rooftop-shooter.js:788-800 | what becomes of a drone depends on the bullets only through where they are, not whether earlier drones spent them |
| `GameLoop.ProcessEnemyEffects` | Games/rooftop-shooter.js:784-802 | one drone's processing adds one kill exactly when a touching bullet finds it at one hit point, appends its drop at its new position exactly then, costs the player 20 on reaching the player and 10 on reaching the ground (nothing with the shield up, floored at zero), keeps the loadout, and spends exactly the last touching bullet |
| `GameLoop.EnemyPassKills` | Games/rooftop-shooter.js:783-803 | the drone pass adds one kill and 100 points per drone shot down (`GameLoop.ShotCount`) |
| `GameLoop.EnemyPassDrops` | Games/rooftop-shooter.js:783-803 | the drone pass appends exactly the drops of the drones shot down that carry one, last drone first, each at the drone's new position |
| `GameLoop.EnemyPassDamage` | Games/rooftop-shooter.js:783-803 | the drone pass lowers hit points by the summed contact and ground damage (20 and 10 per drone), floored at zero, and not at all with the shield up; the loadout is unchanged |
| `GameLoop.EnemyPassSpends` | Games/rooftop-shooter.js:788-800 | after the drone pass a bullet is active exactly when it was active and no drone found it last on its new position |
| `GameLoop.EnemyPassKeepsPowerUpsLive` | Games/rooftop-shooter.js:783-803 | if every power-up was live before the drone pass, every power-up is live after it |
| `GameLoop.EnemyPassEach` | Games/rooftop-shooter.js:784-803 | each drone comes out of the pass as processing it against the state at the start of the pass would leave it, however earlier drones spent bullets |
| `GameLoop.EnemyPassProcessed` | Games/rooftop-shooter.js:784-803 | each drone loses at most one hit point in the pass, and one that was hit stays active only with hit points left |
| `GameLoop.PowerUpUpdate` | Games/rooftop-shooter.js:154-175 | `floatTimer` advances by 0.05, and the power-up drops by the speed 2 plus half the sine of the new timer; it stays active exactly when it was active, does not touch the player and is at most 50 px below the canvas; touching the player collects it (`Game.CollectPowerUp`, counter + 1), and otherwise the game is unchanged |
| `GameLoop.PowerUpPass` | Games/rooftop-shooter.js:805-809 | one processed power-up per power-up; only the counter, loadout and player change |
| `GameLoop.PowerUpPassAbilities` | Games/rooftop-shooter.js:805-809 | after the power-up pass, double shot, rapid fire and shield are each untouched if no power-up of their kind was collected and freshly active at full duration (10 s, 8 s, 15 s) otherwise; the shot interval becomes 100 ms exactly when rapid fire was collected |
| `GameLoop.PowerUpPassHeals` | Games/rooftop-shooter.js:805-809 | after the power-up pass hit points are raised by 30 per health boost collected, capped at the maximum, which is unchanged |
| `GameLoop.PowerUpPassNoTouch` | Games/rooftop-shooter.js:805-809 | a power-up pass in which no power-up touches the player leaves the game unchanged |
| `GameLoop.PowerUpPassEach` | Games/rooftop-shooter.js:805-809 | each power-up comes out of the pass as its own update would leave it, and the collected counter rises by the number of power-ups that touch the player |
| `GameLoop.UpdateBullets` | Games/rooftop-shooter.js:777-781 | after the bullet sweep every bullet is active and trails stay within five; every survivor is the update of some bullet, and every updated bullet still active survives |
| `GameLoop.FrameTimers` | Games/rooftop-shooter.js:757-775 | the timer half of a frame ticks every ability by one frame's 16 ms, keeps hit points, score, kills and power-ups, never lowers the wave and keeps the invariants |
| `GameLoop.SweepBullets` | Games/rooftop-shooter.js:777-781 | the bullet sweep keeps the invariants |
| `GameLoop.SweepDrones` | Games/rooftop-shooter.js:783-803 | if every drone was live with one hit point before the sweep, so is every survivor; the wave is unchanged, score stays paired with kills, and at most one mission is counted |
| `GameLoop.PassSurvivors` | Games/rooftop-shooter.js:783-803 | the active drones of the drone pass are exactly the processed drones still active |
| `GameLoop.SweepDronesSurvivors` | Games/rooftop-shooter.js:783-803 | the drones left after the sweep are exactly the drones whose processing leaves them active |
| `GameLoop.SweepPowerUps` | Games/rooftop-shooter.js:805-809 | after the power-up sweep only live power-ups remain; every survivor is the update of some power-up, every updated power-up still active survives, and the collected counter rises by the number touching the player |
| `GameLoop.FrameSweeps` | Games/rooftop-shooter.js:777-809 | the three sweeps together restore the between-frames invariant |
| `GameLoop.Frame` | Games/rooftop-shooter.js:751-809 | no effect once the game is over; otherwise the timers then the bullet, drone and power-up sweeps, the invariant is kept, score stays paired with kills, the wave never drops, at most one mission is counted |
| `Session.BootIsValid` | Games/rooftop-shooter.js:33-69 | the page-load state satisfies the invariant, with no game running |
| `Session.StepKeepsValid` | Games/rooftop-shooter.js:664-819 | every event handler keeps the invariant |
| `Session.RunKeepsValid` | Games/rooftop-shooter.js:664-819 | every state reached keeps it: 0 ≤ hp ≤ maxHp, fire interval matched to rapid fire, spawn interval in [600, 1500], wave in step with difficulty, trails ≤ 5, only live drones and power-ups |
| `Session.HpAlwaysInRange` | Games/rooftop-shooter.js:400-419 | from page load on, hit points stay within [0, 100] and the spawn interval never drops below 600 |
| `Session.RunKeepsTally` | Games/rooftop-shooter.js:510-516 | within a game, score − 100 × kills never changes and kills never decrease |
| `Session.ScoreCountsThisGamesKills` | Games/rooftop-shooter.js:510-516 | after a new game and any in-game events the score is a multiple of 100, score / 100 is the game's kills, and the game-over screen shows that number |
| `Session.WaveNeverDrops` | Games/rooftop-shooter.js:771-774 | within a game the wave never decreases |
| `Session.OneMissionPerGame` | Games/rooftop-shooter.js:746-749 | within a game, an ended game stays ended and exactly one mission is counted for it |

## Findings

| source | as written | input that shows it | evidently intended | confidence | as-written member | corrected member |
|---|---|---|---|---|---|---|
| Games/rooftop-shooter.js:400-414 | `takeDamage` calls `endGame` whenever hit points end at 0 or below, even if an earlier hit this frame already ended the game; the drone loop keeps running after game over | a running game, shield off, player at 20 hp; two drones reach the player in one frame; `missionsPlayed` rises by 2, game over is shown twice, and the second high-score check hides the "new high score" notice | a game ends, and is counted as a mission, once | medium (not executed) | `Game.DoubleGameOverAsWritten` | `Game.PlayerDamage` |

`Game.PlayerDamageAsWritten` is the source's method as written. `GameLoop` and `Session` use
the guarded `Game.PlayerDamage`. `Game.DoubleHitCountsOneMission` and
`Session.OneMissionPerGame` prove that the guarded version counts one mission per game.

## Left out

- Drawing and DOM updates are presentation only. This covers every `draw()`, the
  background, screen shake, `updateUI`, `displayResults`, `updatePowerUpDisplay`,
  `updateHealthUI`, the score and wave text, and the lobby, how-to-play and game-over
  screen switching.
- Network and timing plumbing are external I/O and become inputs. This covers XHR and
  `fetch`, `abort`, the `setTimeout` that ends the download, `getIP`,
  `performance.now`/`Date.now`, `requestAnimationFrame` and the date/time `setInterval`
  clock.
- `script/script.js` is one fetch wrapped in UI updates and is not part of this model.
- Particles are floating-point decoration with no effect on game state. This covers
  `spawnExplosion`, `spawnHealingEffect` and the particle sweep.
- Aim geometry uses trigonometry. `Math.atan2`, `cos`, `sin` and the 300 px aim clamp are
  left out: shots arrive as muzzle positions and velocities, and the player's gun angle is
  not kept. The mouse-move and touch-move handlers only move the aim and are left out too.
- Random draws are inputs: spawn position, velocity and the drop decision. The power-up
  kind is drawn when the drone is built, not when it drops the power-up. Both draws are
  independent and uniform, so the distribution is the same. Colours are left out.
- Persistence is external storage. `loadData`/`saveData` are left out, and `Boot` takes the
  loaded high score and statistics as parameters.
- `resize` is left out. The canvas size is a frame input, and the player stands at its
  bottom centre.
- `SpeedTest.StableSpeed`: the result is an exact real, not the `toFixed(2)` string.
- `SpeedTest.OnProgress`: samples are exact reals, not rounded to two decimals through
  `toFixed(2)`/`parseFloat`.
- `SpeedTest.PingTest`: round trips are given as reals, not timed with `performance.now`.
  The page always makes 5 attempts; the model takes any number.
- `Game.SpawnStep`: the wave uses exact hundredths. The source adds 0.02 in floating point,
  so `Math.floor(difficulty * 10)` can land one below a boundary. Near a multiple of 0.1 the
  source's wave may then lag the model's by one frame of spawns.
- `GameLoop.EnemyPass`: the source splices each inactive drone out of the list as soon as it has been processed. The model processes every drone first and then applies `Sweep.Filter` in `GameLoop.SweepDrones`. That the two agree is argued, not proved, because each iteration touches only its own drone and the shared game state. `Sweep.SweepInPlace` proves the in-place splice loop equal to `Filter` over `MapSeq` only for updates that carry no game state, as in the bullet loop.
- `GameLoop.PowerUpUpdate`: `floatTimer` steps by an exact 0.05, and the bob uses the sine
  passed in with the frame.
- Positions, velocities and distances are exact reals. The source computes them in double
  precision, and its `Math.sqrt` can round a distance just under a radius sum up to that sum,
  so right at the contact boundary the source may miss a touch that the model counts.
- `Entities.Hurt`: the amount is a natural number. The source only ever passes 10 and 20.

=== FILE: abilities.dfy ===
/**
 * The player's timed power-up abilities and the fire interval that rapid fire
 * swaps. Times are integer milliseconds.
 */
module Abilities {

  const DoubleShotDuration: int := 10000
  const RapidFireDuration: int := 8000
  const ShieldDuration: int := 15000
  /** Fire interval while rapid fire is active. */
  const RapidFireInterval: int := 100
  /** Fire interval otherwise. */
  const DefaultShootInterval: int := 200

  datatype Ability = Ability(active: bool, timer: int)

  /** An ability that is off with a zero timer, as a new game leaves it. */
  const Idle: Ability := Ability(false, 0)

  /** The four ability records, in the order the source iterates them. */
  datatype Abilities = Abilities(doubleShot: Ability, rapidFire: Ability, healthBoost: Ability, shield: Ability)

  /** The abilities together with the player's current fire interval. */
  datatype Loadout = Loadout(abilities: Abilities, shootInterval: int)

  /** An active ability still has time on its clock. */
  predicate Running(a: Ability) {
    a.active ==> a.timer > 0
  }

  /**
   * What every reachable loadout satisfies: active timers are positive, the
   * instant health boost never stays active, and the fire interval is the
   * rapid-fire one exactly while rapid fire is active.
   */
  predicate Consistent(l: Loadout) {
    && Running(l.abilities.doubleShot)
    && Running(l.abilities.rapidFire)
    && Running(l.abilities.shield)
    && !l.abilities.healthBoost.active
    && l.shootInterval == if l.abilities.rapidFire.active then RapidFireInterval else DefaultShootInterval
  }

  /** The loadout a new game starts with. */
  function ResetLoadout(): (l: Loadout)
    ensures Consistent(l)
    ensures !l.abilities.doubleShot.active && !l.abilities.rapidFire.active && !l.abilities.shield.active
  {
    Loadout(Abilities(Idle, Idle, Idle, Idle), DefaultShootInterval)
  }

  function ActivateDoubleShot(l: Loadout): (r: Loadout)
    ensures r.abilities.doubleShot == Ability(true, DoubleShotDuration)
    ensures r.abilities.(doubleShot := l.abilities.doubleShot) == l.abilities
    ensures r.shootInterval == l.shootInterval
    ensures Consistent(l) ==> Consistent(r)
  {
    l.(abilities := l.abilities.(doubleShot := Ability(true, DoubleShotDuration)))
  }

  function ActivateRapidFire(l: Loadout): (r: Loadout)
    ensures r.abilities.rapidFire == Ability(true, RapidFireDuration)
    ensures r.abilities.(rapidFire := l.abilities.rapidFire) == l.abilities
    ensures r.shootInterval == RapidFireInterval
    ensures Consistent(l) ==> Consistent(r)
  {
    Loadout(l.abilities.(rapidFire := Ability(true, RapidFireDuration)), RapidFireInterval)
  }

  function ActivateShield(l: Loadout): (r: Loadout)
    ensures r.abilities.shield == Ability(true, ShieldDuration)
    ensures r.abilities.(shield := l.abilities.shield) == l.abilities
    ensures r.shootInterval == l.shootInterval
    ensures Consistent(l) ==> Consistent(r)
  {
    l.(abilities := l.abilities.(shield := Ability(true, ShieldDuration)))
  }

  /** One ability's share of a frame: an active timer runs down and stops at zero or below. */
  function Tick(a: Ability, dt: int): (r: Ability)
    ensures !a.active ==> r == a
    ensures a.active ==> r.timer == a.timer - dt && (r.active <==> a.timer - dt > 0)
    ensures Running(r)
  {
    if !a.active then a
    else
      var t := a.timer - dt;
      if t <= 0 then Ability(false, t) else Ability(true, t)
  }

  /** updateAbilities: runs every ability's clock; rapid fire's expiry restores the default interval. */
  function UpdateAbilities(l: Loadout, dt: int): (r: Loadout)
    ensures r.abilities.doubleShot == Tick(l.abilities.doubleShot, dt)
    ensures r.abilities.rapidFire == Tick(l.abilities.rapidFire, dt)
    ensures r.abilities.healthBoost == Tick(l.abilities.healthBoost, dt)
    ensures r.abilities.shield == Tick(l.abilities.shield, dt)
    ensures r.shootInterval ==
      if l.abilities.rapidFire.active && !r.abilities.rapidFire.active then DefaultShootInterval
      else l.shootInterval
    ensures Consistent(l) ==> Consistent(r)
  {
    var ab := l.abilities;
    var rapid := Tick(ab.rapidFire, dt);
    Loadout(
      Abilities(Tick(ab.doubleShot, dt), rapid, Tick(ab.healthBoost, dt), Tick(ab.shield, dt)),
      if ab.rapidFire.active && !rapid.active then DefaultShootInterval else l.shootInterval)
  }

  /** An ability after `k` frames of `dt` milliseconds each. */
  function TickFrames(a: Ability, dt: int, k: nat): Ability {
    if k == 0 then a else Tick(TickFrames(a, dt, k - 1), dt)
  }

  /**
   * An ability switched on with `duration` milliseconds stays on for exactly the
   * frames that end before the duration has elapsed, counting down as it goes.
   */
  lemma {:induction false} ActiveForItsDuration(duration: int, dt: int, k: nat)
    requires duration > 0 && dt > 0
    ensures k * dt < duration ==> TickFrames(Ability(true, duration), dt, k) == Ability(true, duration - k * dt)
    ensures k * dt >= duration ==> !TickFrames(Ability(true, duration), dt, k).active
  {
    if k > 0 {
      ActiveForItsDuration(duration, dt, k - 1);
      assert k * dt == (k - 1) * dt + dt;
    }
  }

  /** With 16 ms frames rapid fire lasts exactly 500 frames. */
  lemma RapidFireLasts500Frames()
    ensures TickFrames(Ability(true, RapidFireDuration), 16, 499).active
    ensures !TickFrames(Ability(true, RapidFireDuration), 16, 500).active
  {
    ActiveForItsDuration(RapidFireDuration, 16, 499);
    ActiveForItsDuration(RapidFireDuration, 16, 500);
  }
}

=== FILE: entities.dfy ===
/**
 * The game's entities, stripped of drawing: the player's hit points, bullets
 * with their bounded trail, enemy drones and falling power-ups. Positions are
 * exact reals; hit tests compare squared distances with squared radius sums,
 * which over exact reals decides the same as a square-root comparison.
 */
module Entities {
  import opened Options

  datatype Pos = Pos(x: real, y: real) {
    function Plus(v: Pos): Pos {
      Pos(x + v.x, y + v.y)
    }
  }

  function DistSq(a: Pos, b: Pos): real {
    (a.x - b.x) * (a.x - b.x) + (a.y - b.y) * (a.y - b.y)
  }

  /** Whether two circles whose radii sum to `reach` overlap. */
  predicate Touching(a: Pos, b: Pos, reach: real) {
    DistSq(a, b) < reach * reach
  }

  function Abs(x: real): real {
    if x < 0.0 then -x else x
  }

  /** The canvas size; the player stands centred, 80 pixels above the bottom. */
  datatype Screen = Screen(width: real, height: real) {
    function PlayerPos(): Pos {
      Pos(width / 2.0, height - 80.0)
    }
  }

  // ---------------------------------------------------------------------------
  // Player
  // ---------------------------------------------------------------------------

  const PlayerMaxHp: int := 100
  const PlayerRadius: real := 30.0
  /** Hit points restored by a health-boost power-up. */
  const HealthBoostAmount: nat := 30

  datatype Player = Player(hp: int, maxHp: int, lastShot: int)

  function NewPlayer(): (p: Player)
    ensures p.hp == p.maxHp == PlayerMaxHp && p.lastShot == 0
  {
    Player(PlayerMaxHp, PlayerMaxHp, 0)
  }

  predicate HpInRange(p: Player) {
    0 <= p.hp <= p.maxHp
  }

  /** Whether a hit of `amount` brings an unshielded player to zero. */
  predicate Fatal(p: Player, shielded: bool, amount: nat) {
    !shielded && p.hp - amount <= 0
  }

  /** Player.takeDamage's effect on hit points: blocked by the shield, else lowered and floored at zero. */
  function Hurt(p: Player, shielded: bool, amount: nat): (r: Player)
    ensures shielded ==> r == p
    ensures !shielded ==> r.hp == 0 || r.hp == p.hp - amount
    ensures !shielded && p.hp >= 0 ==> 0 <= r.hp <= p.hp && (r.hp == p.hp - amount <==> p.hp >= amount)
    ensures !shielded ==> (r.hp == 0 <==> Fatal(p, shielded, amount))
    ensures r.maxHp == p.maxHp && r.lastShot == p.lastShot
    ensures HpInRange(p) ==> HpInRange(r)
  {
    if shielded then p
    else
      var hp := p.hp - amount;
      if hp <= 0 then p.(hp := 0) else p.(hp := hp)
  }

  /** Player.heal and the health boost: raise hit points, capped at the maximum. */
  function Heal(p: Player, amount: nat): (r: Player)
    ensures p.hp + amount <= p.maxHp ==> r.hp == p.hp + amount
    ensures p.hp + amount >= p.maxHp ==> r.hp == p.maxHp
    ensures r.maxHp == p.maxHp && r.lastShot == p.lastShot
    ensures HpInRange(p) ==> HpInRange(r)
  {
    p.(hp := if p.maxHp < p.hp + amount then p.maxHp else p.hp + amount)
  }

  // ---------------------------------------------------------------------------
  // Bullets
  // ---------------------------------------------------------------------------

  const BulletRadius: real := 4.0
  /** How many past positions a bullet's trail keeps. */
  const TrailLength: nat := 5

  datatype Bullet = Bullet(pos: Pos, vel: Pos, trail: seq<Pos>, active: bool)

  function NewBullet(pos: Pos, vel: Pos): Bullet {
    Bullet(pos, vel, [], true)
  }

  predicate IsLiveBullet(b: Bullet) {
    b.active
  }

  /** The last `n` entries of `s` (all of them when there are fewer). */
  function Recent<T>(s: seq<T>, n: nat): (r: seq<T>)
    ensures |r| == if |s| <= n then |s| else n
  {
    if |s| <= n then s else s[|s| - n..]
  }

  /** Appends a position to a trail and drops the oldest once it is too long. */
  function PushTrail(trail: seq<Pos>, p: Pos): (r: seq<Pos>)
    ensures |trail| <= TrailLength ==> r == Recent(trail + [p], TrailLength)
    ensures |trail| <= TrailLength ==> 0 < |r| <= TrailLength
    ensures 0 < |r| && r[|r| - 1] == p
  {
    var t := trail + [p];
    if |t| > TrailLength then t[1..] else t
  }

  /** The trail after recording each position of `history` in turn. */
  function RecordAll(trail: seq<Pos>, history: seq<Pos>): (r: seq<Pos>)
    requires |trail| <= TrailLength
    ensures |r| <= TrailLength
  {
    if |history| == 0 then trail
    else PushTrail(RecordAll(trail, history[..|history| - 1]), history[|history| - 1])
  }

  lemma RecentOfRecent<T>(s: seq<T>, x: T, n: nat)
    requires n > 0
    ensures Recent(Recent(s, n) + [x], n) == Recent(s + [x], n)
  {
    if |s| > n {
      assert (s + [x])[|s| + 1 - n..] == (s[|s| - n..] + [x])[1..];
    }
  }

  /** A trail started empty holds exactly the last five positions recorded, oldest first. */
  lemma {:induction false} TrailIsRecentHistory(history: seq<Pos>)
    ensures RecordAll([], history) == Recent(history, TrailLength)
  {
    if |history| > 0 {
      var init := history[..|history| - 1];
      TrailIsRecentHistory(init);
      RecentOfRecent(init, history[|history| - 1], TrailLength);
      assert init + [history[|history| - 1]] == history;
    }
  }

  /**
   * Bullet.update: record the current position in the trail, move, and
   * deactivate once outside the canvas.
   */
  function UpdateBullet(b: Bullet, screen: Screen): (r: Bullet)
    ensures r.trail == PushTrail(b.trail, b.pos) && r.vel == b.vel
    ensures r.pos == b.pos.Plus(b.vel)
    ensures r.active <==> b.active && 0.0 <= r.pos.x <= screen.width && 0.0 <= r.pos.y <= screen.height
  {
    var pos := b.pos.Plus(b.vel);
    var outside := pos.x < 0.0 || pos.x > screen.width || pos.y < 0.0 || pos.y > screen.height;
    Bullet(pos, b.vel, PushTrail(b.trail, b.pos), b.active && !outside)
  }

  // ---------------------------------------------------------------------------
  // Enemies
  // ---------------------------------------------------------------------------

  const EnemyRadius: real := 18.0

  /** The kind a power-up is drawn with. */
  datatype PowerUpKind = DoubleShot | RapidFire | HealthBoost | Shield

  /**
   * An enemy drone. Whether it drops a power-up, and of which kind, is a random
   * draw; here it is drawn once, when the drone is built.
   */
  datatype Enemy = Enemy(pos: Pos, vel: Pos, hp: int, active: bool, drop: Option<PowerUpKind>)

  function NewEnemy(pos: Pos, vel: Pos, drop: Option<PowerUpKind>): (e: Enemy)
    ensures e.active && e.hp == 1
  {
    Enemy(pos, vel, 1, true, drop)
  }

  predicate IsLiveEnemy(e: Enemy) {
    e.active
  }

  /** Enemy.takeDamage's effect on the drone: one hit point less, and down at zero. */
  function Wound(e: Enemy): (r: Enemy)
    ensures r.hp == e.hp - 1
    ensures r.active <==> e.active && r.hp > 0
    ensures r == e.(hp := e.hp - 1, active := r.active)
  {
    var hp := e.hp - 1;
    if hp <= 0 then e.(hp := hp, active := false) else e.(hp := hp)
  }

  // ---------------------------------------------------------------------------
  // Power-ups
  // ---------------------------------------------------------------------------

  const PowerUpRadius: real := 12.0
  const PowerUpFallSpeed: real := 2.0

  datatype PowerUp = PowerUp(kind: PowerUpKind, pos: Pos, floatTimer: real, active: bool)

  function NewPowerUp(kind: PowerUpKind, pos: Pos): PowerUp {
    PowerUp(kind, pos, 0.0, true)
  }

  predicate IsLivePowerUp(p: PowerUp) {
    p.active
  }
}

=== FILE: game.dfy ===
/**
 * The rooftop shooter's game state and the steps that change it: damage and
 * healing, kills and scoring, power-up collection, shooting, the spawn
 * schedule, the reset of a new game and one frame of the game loop. Drawing,
 * particles and screen shake are not part of it; time, random draws and
 * trigonometric results arrive as inputs.
 */
module Game {
  import opened Options
  import opened Abilities
  import opened Entities
  import opened Sweep

  /** The loop assumes 16 ms between frames. */
  const FrameMs: int := 16
  const KillScore: int := 100
  const InitialSpawnInterval: int := 1500
  const MinSpawnInterval: int := 600
  const SpawnIntervalStep: int := 20
  /** Difficulty is kept in hundredths: 1.00 at the start, +0.02 per spawn. */
  const InitialDifficulty: int := 100
  const DifficultyStep: int := 2
  /** Damage from a drone reaching the player, and from one reaching the ground. */
  const ContactDamage: nat := 20
  const GroundDamage: nat := 10

  datatype Game = Game(
    active: bool,
    score: int,
    difficulty: int,
    wave: int,
    highScore: int,
    missionsPlayed: int,
    totalDronesShot: int,
    powerUpsCollected: int,
    player: Player,
    bullets: seq<Bullet>,
    enemies: seq<Enemy>,
    powerUps: seq<PowerUp>,
    loadout: Loadout,
    isShooting: bool,
    autoShootTimer: int,
    spawnTimer: int,
    spawnInterval: int)

  /**
   * The state when the page loads, with the high score and statistics read
   * back from storage passed in.
   */
  function Boot(highScore: int, missionsPlayed: int, totalDronesShot: int): Game {
    Game(false, 0, InitialDifficulty, 1, highScore, missionsPlayed, totalDronesShot, 0,
      NewPlayer(), [], [], [], ResetLoadout(), false, 0, 0, InitialSpawnInterval)
  }

  // ---------------------------------------------------------------------------
  // Invariants
  // ---------------------------------------------------------------------------

  predicate SpawnScheduleOk(g: Game) {
    && MinSpawnInterval <= g.spawnInterval <= InitialSpawnInterval
    && g.spawnInterval % SpawnIntervalStep == 0
    && 0 <= g.spawnTimer <= g.spawnInterval
  }

  /** The wave shown is 1 until the first spawn, then the difficulty's tenths. */
  predicate WaveOk(g: Game) {
    && g.difficulty >= InitialDifficulty
    && 1 <= g.wave <= g.difficulty / 10
    && (g.difficulty > InitialDifficulty ==> g.wave == g.difficulty / 10)
  }

  predicate TrailsBounded(bs: seq<Bullet>) {
    forall i :: 0 <= i < |bs| ==> |bs[i].trail| <= TrailLength
  }

  /** The facts every step inside a frame keeps. */
  predicate Core(g: Game) {
    && HpInRange(g.player)
    && g.player.maxHp == PlayerMaxHp
    && Consistent(g.loadout)
    && SpawnScheduleOk(g)
    && WaveOk(g)
    && TrailsBounded(g.bullets)
  }

  predicate LiveEnemies(es: seq<Enemy>) {
    forall i :: 0 <= i < |es| ==> es[i].active && es[i].hp == 1
  }

  predicate LivePowerUps(ps: seq<PowerUp>) {
    forall i :: 0 <= i < |ps| ==> ps[i].active
  }

  /** What holds between frames. */
  predicate Valid(g: Game) {
    Core(g) && LiveEnemies(g.enemies) && LivePowerUps(g.powerUps)
  }

  /** The score counts the drones shot since the game whose start count is `base`. */
  predicate ScoreTracks(g: Game, base: int) {
    g.totalDronesShot >= base && g.score == KillScore * (g.totalDronesShot - base)
  }

  /** A step keeps the score paired with the kill counter and never lowers the counter. */
  predicate KeepsTally(g: Game, r: Game) {
    && r.totalDronesShot >= g.totalDronesShot
    && r.score - KillScore * r.totalDronesShot == g.score - KillScore * g.totalDronesShot
  }

  /**
   * A step never restarts the game, and counts one more mission exactly when
   * it ends a running game.
   */
  predicate EndsAtMostOnce(g: Game, r: Game) {
    && (r.active ==> g.active)
    && r.missionsPlayed == g.missionsPlayed + if g.active && !r.active then 1 else 0
  }

  // ---------------------------------------------------------------------------
  // High score and game over
  // ---------------------------------------------------------------------------

  /** checkAndUpdateHighScore: reports a new record and keeps the larger of the two. */
  function CheckAndUpdateHighScore(score: int, highScore: int): (r: (bool, int))
    ensures r.0 <==> score > highScore
    ensures r.1 >= score && r.1 >= highScore && (r.1 == score || r.1 == highScore)
  {
    if score > highScore then (true, score) else (false, highScore)
  }

  /** endGame and showGameOver: stop the game, record the high score, count the mission. */
  function EndGame(g: Game): (r: Game)
    ensures !r.active && r.missionsPlayed == g.missionsPlayed + 1
    ensures r.highScore == CheckAndUpdateHighScore(g.score, g.highScore).1
    ensures r.(active := g.active, highScore := g.highScore, missionsPlayed := g.missionsPlayed) == g
  {
    g.(active := false, highScore := CheckAndUpdateHighScore(g.score, g.highScore).1,
       missionsPlayed := g.missionsPlayed + 1)
  }

  /** The number of this game's kills the game-over screen shows: `total - (total - score / 100)`. */
  function DronesShownAtGameOver(g: Game): real {
    g.totalDronesShot as real - (g.totalDronesShot as real - g.score as real / KillScore as real)
  }

  /** The game-over screen shows exactly the drones shot in this game. */
  lemma GameOverShowsThisGamesKills(g: Game, base: int)
    requires ScoreTracks(g, base)
    ensures g.score % KillScore == 0
    ensures DronesShownAtGameOver(g) == (g.totalDronesShot - base) as real
    ensures DronesShownAtGameOver(g) == (g.score / KillScore) as real
  {
  }

  // ---------------------------------------------------------------------------
  // Player hit points
  // ---------------------------------------------------------------------------

  function Shielded(g: Game): bool {
    g.loadout.abilities.shield.active
  }

  /**
   * Player.takeDamage as the source writes it: any hit that leaves hit points
   * at zero ends the game, even when an earlier hit in the same frame already
   * ended it.
   */
  function PlayerDamageAsWritten(g: Game, amount: nat): (r: Game)
    ensures r.player == Hurt(g.player, Shielded(g), amount)
    ensures Fatal(g.player, Shielded(g), amount) ==>
      && !r.active
      && r.highScore == CheckAndUpdateHighScore(g.score, g.highScore).1
      && r.missionsPlayed == g.missionsPlayed + 1
    ensures !Fatal(g.player, Shielded(g), amount) ==> r == g.(player := Hurt(g.player, Shielded(g), amount))
  {
    var g1 := g.(player := Hurt(g.player, Shielded(g), amount));
    if Fatal(g.player, Shielded(g), amount) then EndGame(g1) else g1
  }

  /** Two drones reaching a 20-hit-point player in one frame count two missions. */
  lemma DoubleGameOverAsWritten(g: Game)
    requires g.active && !Shielded(g) && g.player.hp == 20
    ensures PlayerDamageAsWritten(PlayerDamageAsWritten(g, ContactDamage), ContactDamage).missionsPlayed
         == g.missionsPlayed + 2
  {
  }

  /**
   * Player.takeDamage, with the game ending only while it is still running:
   * the shield blocks the hit; otherwise hit points drop and are floored at
   * zero, and reaching zero ends the game.
   */
  function PlayerDamage(g: Game, amount: nat): (r: Game)
    ensures r.player == Hurt(g.player, Shielded(g), amount)
    ensures Shielded(g) ==> r == g
    ensures g.active ==> (r.active <==> !Fatal(g.player, Shielded(g), amount))
    ensures r.highScore ==
      if g.active && Fatal(g.player, Shielded(g), amount)
      then CheckAndUpdateHighScore(g.score, g.highScore).1 else g.highScore
    ensures EndsAtMostOnce(g, r)
    ensures KeepsTally(g, r)
    ensures Core(g) ==> Core(r)
    ensures r.(player := g.player, active := g.active, highScore := g.highScore, missionsPlayed := g.missionsPlayed) == g
  {
    var g1 := g.(player := Hurt(g.player, Shielded(g), amount));
    if Fatal(g.player, Shielded(g), amount) && g.active then EndGame(g1) else g1
  }

  /** Two fatal hits in one frame count one mission. */
  lemma DoubleHitCountsOneMission(g: Game)
    requires g.active && !Shielded(g) && g.player.hp == 20
    ensures PlayerDamage(PlayerDamage(g, ContactDamage), ContactDamage).missionsPlayed == g.missionsPlayed + 1
  {
  }

  /** activateHealthBoost: thirty hit points, capped at the maximum. */
  function ApplyHealthBoost(g: Game): (r: Game)
    ensures r.player == Heal(g.player, HealthBoostAmount)
    ensures r.(player := g.player) == g
  {
    g.(player := Heal(g.player, HealthBoostAmount))
  }

  // ---------------------------------------------------------------------------
  // Kills and power-ups
  // ---------------------------------------------------------------------------

  /**
   * Enemy.takeDamage: one hit point less; a drone brought to zero goes down,
   * adds 100 to the score and one to the kill counter, and drops its power-up
   * if it carries one.
   */
  function EnemyTakeDamage(g: Game, e: Enemy): (r: (Game, Enemy))
    ensures r.1 == Wound(e)
    ensures r.1.hp <= 0 ==> r.0.score == g.score + KillScore && r.0.totalDronesShot == g.totalDronesShot + 1
    ensures r.1.hp > 0 ==> r.0 == g
    ensures r.1.hp <= 0 && e.drop.Some? ==> r.0.powerUps == g.powerUps + [NewPowerUp(e.drop.value, e.pos)]
    ensures r.1.hp <= 0 && e.drop.None? ==> r.0.powerUps == g.powerUps
    ensures r.0.(score := g.score, totalDronesShot := g.totalDronesShot, powerUps := g.powerUps) == g
    ensures KeepsTally(g, r.0)
  {
    var e1 := Wound(e);
    if e1.hp <= 0 then
      var dropped := if e.drop.Some? then [NewPowerUp(e.drop.value, e.pos)] else [];
      (g.(score := g.score + KillScore, totalDronesShot := g.totalDronesShot + 1,
          powerUps := g.powerUps + dropped), e1)
    else (g, e1)
  }

  /** PowerUp.collect: the power-up is used up, counted, and its ability applied. */
  function CollectPowerUp(g: Game, p: PowerUp): (r: (Game, PowerUp))
    ensures r.1 == p.(active := false)
    ensures r.0.powerUpsCollected == g.powerUpsCollected + 1
    ensures p.kind == DoubleShot ==> r.0.loadout == ActivateDoubleShot(g.loadout)
    ensures p.kind == RapidFire ==> r.0.loadout == ActivateRapidFire(g.loadout)
    ensures p.kind == Shield ==> r.0.loadout == ActivateShield(g.loadout)
    ensures p.kind == HealthBoost ==> r.0.loadout == g.loadout && r.0.player == Heal(g.player, HealthBoostAmount)
    ensures p.kind != HealthBoost ==> r.0.player == g.player
    ensures r.0.(powerUpsCollected := g.powerUpsCollected, loadout := g.loadout, player := g.player) == g
    ensures Core(g) ==> Core(r.0)
  {
    var g1 := g.(powerUpsCollected := g.powerUpsCollected + 1);
    var g2 :=
      match p.kind
      case DoubleShot => g1.(loadout := ActivateDoubleShot(g1.loadout))
      case RapidFire => g1.(loadout := ActivateRapidFire(g1.loadout))
      case HealthBoost => ApplyHealthBoost(g1)
      case Shield => g1.(loadout := ActivateShield(g1.loadout));
    (g2, p.(active := false))
  }

  // ---------------------------------------------------------------------------
  // Shooting
  // ---------------------------------------------------------------------------

  /** Where a bullet starts and how it moves; the source derives both with trigonometry. */
  datatype Aim = Aim(pos: Pos, vel: Pos)

  /** The muzzle geometry of one trigger pull: the single barrel and the two double-shot barrels. */
  datatype Shot = Shot(single: Aim, left: Aim, right: Aim)

  function ShotBullets(l: Loadout, shot: Shot): (bs: seq<Bullet>)
    ensures |bs| == if l.abilities.doubleShot.active then 2 else 1
    ensures forall i :: 0 <= i < |bs| ==> bs[i].active && bs[i].trail == []
    ensures l.abilities.doubleShot.active ==>
      bs[0].pos == shot.left.pos && bs[0].vel == shot.left.vel && bs[1].pos == shot.right.pos && bs[1].vel == shot.right.vel
    ensures !l.abilities.doubleShot.active ==> bs[0].pos == shot.single.pos && bs[0].vel == shot.single.vel
  {
    if l.abilities.doubleShot.active
    then [NewBullet(shot.left.pos, shot.left.vel), NewBullet(shot.right.pos, shot.right.vel)]
    else [NewBullet(shot.single.pos, shot.single.vel)]
  }

  /**
   * shoot: nothing happens until the fire interval has passed since the last
   * shot; then the shot time is recorded and one bullet, or two with double
   * shot, is added.
   */
  function Shoot(g: Game, now: int, shot: Shot): (r: Game)
    ensures now - g.player.lastShot < g.loadout.shootInterval ==> r == g
    ensures now - g.player.lastShot >= g.loadout.shootInterval ==>
      && r.player.lastShot == now
      && |r.bullets| == |g.bullets| + (if g.loadout.abilities.doubleShot.active then 2 else 1)
      && r.bullets[..|g.bullets|] == g.bullets
      && r.bullets[|g.bullets|..] == ShotBullets(g.loadout, shot)
    ensures r.(bullets := g.bullets, player := g.player) == g
    ensures r.player.hp == g.player.hp && r.player.maxHp == g.player.maxHp
    ensures Core(g) ==> Core(r)
    ensures LiveEnemies(g.enemies) ==> LiveEnemies(r.enemies)
  {
    if now - g.player.lastShot < g.loadout.shootInterval then g
    else
      var added := ShotBullets(g.loadout, shot);
      var r := g.(player := g.player.(lastShot := now), bullets := g.bullets + added);
      assert r.bullets[..|g.bullets|] == g.bullets;
      assert r.bullets[|g.bullets|..] == added;
      r
  }

  /** Two shots that both go off are at least one fire interval apart. */
  lemma ShotsAreSpaced(g: Game, first: int, second: int, shot1: Shot, shot2: Shot)
    requires first - g.player.lastShot >= g.loadout.shootInterval
    requires Shoot(Shoot(g, first, shot1), second, shot2) != Shoot(g, first, shot1)
    ensures second - first >= g.loadout.shootInterval
  {
  }

  /**
   * updateShooting: while the trigger is held, the accumulator grows by the
   * frame time; once it reaches the fire interval a shot is attempted and the
   * accumulator restarts.
   */
  function UpdateShooting(g: Game, dt: int, now: int, shot: Shot): (r: Game)
    ensures !g.isShooting ==> r == g
    ensures g.isShooting && g.autoShootTimer + dt < g.loadout.shootInterval ==>
      r == g.(autoShootTimer := g.autoShootTimer + dt)
    ensures g.isShooting && g.autoShootTimer + dt >= g.loadout.shootInterval ==>
      r == Shoot(g, now, shot).(autoShootTimer := 0)
    ensures Core(g) ==> Core(r)
    ensures LiveEnemies(g.enemies) ==> LiveEnemies(r.enemies)
  {
    if !g.isShooting then g
    else
      var t := g.autoShootTimer + dt;
      if t >= g.loadout.shootInterval then Shoot(g.(autoShootTimer := t), now, shot).(autoShootTimer := 0)
      else g.(autoShootTimer := t)
  }

  /** handleMouseDown / handleTouchStart: ignored unless a game runs; otherwise hold the trigger and fire. */
  function PointerDown(g: Game, now: int, shot: Shot): (r: Game)
    ensures !g.active ==> r == g
    ensures g.active ==> r.isShooting && r == Shoot(g.(isShooting := true), now, shot)
  {
    if !g.active then g else Shoot(g.(isShooting := true), now, shot)
  }

  /** stopShooting: release the trigger. */
  function PointerUp(g: Game): (r: Game)
    ensures !r.isShooting && r.(isShooting := g.isShooting) == g
  {
    g.(isShooting := false)
  }

  // ---------------------------------------------------------------------------
  // Spawn schedule
  // ---------------------------------------------------------------------------

  /** The random part of a new drone: where it starts, how it moves, what it drops. */
  datatype EnemySpawn = EnemySpawn(pos: Pos, vel: Pos, drop: Option<PowerUpKind>)

  /**
   * The spawn block of the game loop: the timer grows by the frame time; once
   * it strictly exceeds the interval one drone is added, the timer restarts,
   * the interval shrinks by 20 while above 600, the difficulty grows by 0.02
   * and the wave follows the difficulty's tenths upwards.
   */
  function SpawnStep(g: Game, dt: int, spawn: EnemySpawn): (r: Game)
    ensures g.spawnTimer + dt > g.spawnInterval ==>
      && r.enemies == g.enemies + [NewEnemy(spawn.pos, spawn.vel, spawn.drop)]
      && r.spawnTimer == 0
      && r.difficulty == g.difficulty + DifficultyStep
      && r.spawnInterval == (if g.spawnInterval > MinSpawnInterval then g.spawnInterval - SpawnIntervalStep else g.spawnInterval)
    ensures g.spawnTimer + dt <= g.spawnInterval ==>
      r == g.(spawnTimer := g.spawnTimer + dt)
    ensures r.wave >= g.wave
    ensures r.(enemies := g.enemies, spawnTimer := g.spawnTimer, spawnInterval := g.spawnInterval,
               difficulty := g.difficulty, wave := g.wave) == g
    ensures dt >= 0 && Core(g) ==> Core(r)
    ensures LiveEnemies(g.enemies) ==> LiveEnemies(r.enemies)
  {
    var t := g.spawnTimer + dt;
    if t > g.spawnInterval then
      var d := g.difficulty + DifficultyStep;
      g.(enemies := g.enemies + [NewEnemy(spawn.pos, spawn.vel, spawn.drop)],
         spawnTimer := 0,
         spawnInterval := if g.spawnInterval > MinSpawnInterval then g.spawnInterval - SpawnIntervalStep else g.spawnInterval,
         difficulty := d,
         wave := if d / 10 > g.wave then d / 10 else g.wave)
    else g.(spawnTimer := t)
  }

  // ---------------------------------------------------------------------------
  // New game
  // ---------------------------------------------------------------------------

  /**
   * initGame: a fresh player, empty entity lists, score 0, difficulty 1,
   * wave 1, spawn interval 1500, default fire interval, all abilities off,
   * trigger released. The high score, the statistics, the shooting
   * accumulator and the spawn timer carry over.
   */
  function InitGame(g: Game): (r: Game)
    ensures r.active && r.score == 0 && r.wave == 1 && r.difficulty == InitialDifficulty
    ensures r.player == NewPlayer() && r.bullets == [] && r.enemies == [] && r.powerUps == []
    ensures r.spawnInterval == InitialSpawnInterval && r.loadout == ResetLoadout()
    ensures r.powerUpsCollected == 0 && !r.isShooting
    ensures r.highScore == g.highScore && r.missionsPlayed == g.missionsPlayed
    ensures r.totalDronesShot == g.totalDronesShot
    ensures r.autoShootTimer == g.autoShootTimer && r.spawnTimer == g.spawnTimer
    ensures ScoreTracks(r, g.totalDronesShot)
    ensures Valid(g) ==> Valid(r)
  {
    g.(active := true, score := 0, difficulty := InitialDifficulty, wave := 1,
       spawnInterval := InitialSpawnInterval, powerUpsCollected := 0,
       player := NewPlayer(), bullets := [], enemies := [], powerUps := [],
       loadout := ResetLoadout(), isShooting := false)
  }
}

=== FILE: gameloop.dfy ===
/**
 * One frame of gameLoop and runs of frames and input events. A frame updates
 * the abilities and the trigger, runs the spawn schedule, then sweeps bullets,
 * drones and power-ups: each is updated and the inactive ones are removed.
 */
module GameLoop {
  import opened Options
  import opened Abilities
  import opened Entities
  import opened Sweep
  import opened Game

  /**
   * What a frame needs from outside: the clock, the muzzle geometry of a shot
   * fired this frame, the random draws for a drone spawned this frame, the
   * canvas size and the sine used for the power-ups' bobbing.
   */
  datatype FrameInput = FrameInput(now: int, shot: Shot, spawn: EnemySpawn, screen: Screen, sine: real -> real)

  const ContactReachY: real := 40.0
  const ContactReachX: real := 60.0
  /** How far below the canvas a power-up falls before it is dropped. */
  const PowerUpFallMargin: real := 50.0

  // ---------------------------------------------------------------------------
  // Drones
  // ---------------------------------------------------------------------------

  /** Whether bullet `b` is on drone position `target` (radii 4 and 18). */
  predicate Hits(b: Bullet, target: Pos) {
    Touching(b.pos, target, BulletRadius + EnemyRadius)
  }

  /** The collision scan: the highest-indexed bullet on the drone, if any. */
  function LastHit(bs: seq<Bullet>, target: Pos): (r: Option<nat>)
    ensures r.Some? ==> r.value < |bs| && Hits(bs[r.value], target)
    ensures r.Some? ==> forall k :: r.value < k < |bs| ==> !Hits(bs[k], target)
    ensures r.None? ==> forall k :: 0 <= k < |bs| ==> !Hits(bs[k], target)
  {
    if |bs| == 0 then None
    else if Hits(bs[|bs| - 1], target) then Some(|bs| - 1)
    else LastHit(bs[..|bs| - 1], target)
  }

  /** Enemy.update's contact test: close enough above the player and within 60 pixels sideways. */
  predicate ReachesPlayer(pos: Pos, screen: Screen) {
    pos.y > screen.PlayerPos().y - ContactReachY && Abs(pos.x - screen.PlayerPos().x) < ContactReachX
  }

  /** Enemy.update's ground test: below the bottom of the canvas. */
  predicate ReachesGround(pos: Pos, screen: Screen) {
    pos.y > screen.height
  }

  /**
   * Enemy.update: the drone moves; reaching the player costs the player 20
   * hit points and reaching the ground costs 10, and either takes the drone
   * out without scoring.
   */
  function EnemyUpdate(g: Game, e: Enemy, screen: Screen): (r: (Game, Enemy))
    ensures r.1 == e.(pos := e.pos.Plus(e.vel), active := r.1.active)
    ensures r.1.active <==>
      e.active && !ReachesPlayer(e.pos.Plus(e.vel), screen) && !ReachesGround(e.pos.Plus(e.vel), screen)
    ensures !ReachesPlayer(e.pos.Plus(e.vel), screen) && !ReachesGround(e.pos.Plus(e.vel), screen) ==> r.0 == g
    ensures ReachesPlayer(e.pos.Plus(e.vel), screen) && !ReachesGround(e.pos.Plus(e.vel), screen) ==>
      r.0 == PlayerDamage(g, ContactDamage)
    ensures !ReachesPlayer(e.pos.Plus(e.vel), screen) && ReachesGround(e.pos.Plus(e.vel), screen) ==>
      r.0 == PlayerDamage(g, GroundDamage)
    ensures ReachesPlayer(e.pos.Plus(e.vel), screen) && ReachesGround(e.pos.Plus(e.vel), screen) ==>
      r.0 == PlayerDamage(PlayerDamage(g, ContactDamage), GroundDamage)
    ensures r.0.(player := g.player, active := g.active, highScore := g.highScore, missionsPlayed := g.missionsPlayed) == g
    ensures EndsAtMostOnce(g, r.0) && KeepsTally(g, r.0)
    ensures Core(g) ==> Core(r.0)
  {
    var pos := e.pos.Plus(e.vel);
    var e1 := e.(pos := pos);
    var (g1, e2) := if ReachesPlayer(pos, screen) then (PlayerDamage(g, ContactDamage), e1.(active := false)) else (g, e1);
    if ReachesGround(pos, screen) then (PlayerDamage(g1, GroundDamage), e2.(active := false)) else (g1, e2)
  }

  /**
   * What one frame can do to a drone's hit points: take at most one, and
   * leave it active after a hit only with hit points to spare.
   */
  predicate Processed(before: Enemy, after: Enemy) {
    && (after.hp == before.hp || after.hp == before.hp - 1)
    && (after.active && after.hp != before.hp ==> after.hp > 0)
  }

  /**
   * One iteration of the drone loop: update the drone, then let the last
   * bullet on it (if any) wound it and go inactive.
   */
  function ProcessEnemy(g: Game, e: Enemy, screen: Screen): (r: (Game, Enemy))
    ensures |r.0.bullets| == |g.bullets|
    ensures LastHit(EnemyUpdate(g, e, screen).0.bullets, EnemyUpdate(g, e, screen).1.pos).None? ==>
      r == EnemyUpdate(g, e, screen)
    ensures LastHit(EnemyUpdate(g, e, screen).0.bullets, EnemyUpdate(g, e, screen).1.pos).Some? ==>
      var j := LastHit(EnemyUpdate(g, e, screen).0.bullets, EnemyUpdate(g, e, screen).1.pos).value;
      && r.1 == Wound(EnemyUpdate(g, e, screen).1)
      && j < |r.0.bullets| && !r.0.bullets[j].active
      && (forall i :: 0 <= i < |g.bullets| && i != j ==> r.0.bullets[i] == g.bullets[i])
      && r.0.(bullets := g.bullets) == EnemyTakeDamage(EnemyUpdate(g, e, screen).0, EnemyUpdate(g, e, screen).1).0
    ensures Processed(e, r.1)
    ensures r.1.active ==> e.active
    ensures forall i :: 0 <= i < |g.bullets| ==> r.0.bullets[i] == g.bullets[i].(active := r.0.bullets[i].active)
    ensures |r.0.powerUps| >= |g.powerUps| && r.0.powerUps[..|g.powerUps|] == g.powerUps
    ensures forall i :: |g.powerUps| <= i < |r.0.powerUps| ==> r.0.powerUps[i].active
    ensures EndsAtMostOnce(g, r.0) && KeepsTally(g, r.0)
    ensures r.0.wave == g.wave
    ensures Core(g) ==> Core(r.0)
  {
    var (g1, e1) := EnemyUpdate(g, e, screen);
    match LastHit(g1.bullets, e1.pos)
    case None => (g1, e1)
    case Some(j) => Strike(g1, e1, j)
  }

  /** Bullet `j` hits the drone: the drone is wounded and the bullet is spent. */
  function Strike(g: Game, e: Enemy, j: nat): (r: (Game, Enemy))
    requires j < |g.bullets|
    ensures r.1 == Wound(e)
    ensures |r.0.bullets| == |g.bullets| && !r.0.bullets[j].active
    ensures forall i :: 0 <= i < |g.bullets| ==> r.0.bullets[i] == g.bullets[i].(active := r.0.bullets[i].active)
    ensures forall i :: 0 <= i < |g.bullets| && i != j ==> r.0.bullets[i] == g.bullets[i]
    ensures r.0.(bullets := g.bullets) == EnemyTakeDamage(g, e).0
  {
    var (g2, e2) := EnemyTakeDamage(g, e);
    var spent := g2.bullets[j].(active := false);
    (g2.(bullets := g2.bullets[j := spent]), e2)
  }

  /**
   * The drone loop, last drone first. Returns the state it leaves and every
   * drone as processed, in list order; the loop's splices keep exactly the
   * processed drones that are still active.
   */
  function EnemyPass(g: Game, es: seq<Enemy>, screen: Screen): (r: (Game, seq<Enemy>))
    decreases |es|
    ensures |r.1| == |es|
    ensures |r.0.bullets| == |g.bullets|
    ensures forall i :: 0 <= i < |es| ==> r.1[i] == DroneAfter(g.bullets, es[i], screen)
    ensures forall i :: 0 <= i < |g.bullets| ==> r.0.bullets[i] == g.bullets[i].(active := r.0.bullets[i].active)
    ensures EndsAtMostOnce(g, r.0) && KeepsTally(g, r.0)
    ensures r.0.wave == g.wave
    ensures Core(g) ==> Core(r.0)
  {
    if |es| == 0 then (g, [])
    else
      var (g1, last) := ProcessEnemy(g, es[|es| - 1], screen);
      var (g2, rest) := EnemyPass(g1, es[..|es| - 1], screen);
      ProcessEnemyIsDroneAfter(g, es[|es| - 1], screen);
      ProcessEnemyKeepsPlaces(g, es[|es| - 1], screen);
      DroneAfterSamePlaces(g1.bullets, g.bullets, es[..|es| - 1], screen);
      (g2, rest + [last])
  }

  /** The drone pass takes at most one hit point from each drone, and a hit drone stays only with hit points left. */
  lemma {:induction false} EnemyPassProcessed(g: Game, es: seq<Enemy>, screen: Screen)
    ensures forall i :: 0 <= i < |es| ==> Processed(es[i], EnemyPass(g, es, screen).1[i])
    decreases |es|
  {
    if |es| > 0 {
      var (g1, last) := ProcessEnemy(g, es[|es| - 1], screen);
      var init := es[..|es| - 1];
      EnemyPassProcessed(g1, init, screen);
      var rest := EnemyPass(g1, init, screen).1;
      assert EnemyPass(g, es, screen).1 == rest + [last];
      forall i | 0 <= i < |es|
        ensures Processed(es[i], EnemyPass(g, es, screen).1[i])
      {
        if i < |init| {
          assert es[i] == init[i];
        }
      }
    }
  }

  /** The collision scan reads only where the bullets are. */
  lemma {:induction false} LastHitSame(bs: seq<Bullet>, cs: seq<Bullet>, target: Pos)
    requires |bs| == |cs|
    requires forall i :: 0 <= i < |bs| ==> bs[i].pos == cs[i].pos
    ensures LastHit(bs, target) == LastHit(cs, target)
    decreases |bs|
  {
    if |bs| > 0 {
      LastHitSame(bs[..|bs| - 1], cs[..|cs| - 1], target);
    }
  }

  /** Whether two bullet lists hold bullets at the same places. */
  predicate SamePlaces(bs: seq<Bullet>, cs: seq<Bullet>) {
    |bs| == |cs| && forall i :: 0 <= i < |bs| ==> bs[i].pos == cs[i].pos
  }

  /** Processing a drone moves no bullet. */
  lemma ProcessEnemyKeepsPlaces(g: Game, e: Enemy, screen: Screen)
    ensures SamePlaces(ProcessEnemy(g, e, screen).0.bullets, g.bullets)
  {
    var r := ProcessEnemy(g, e, screen);
    forall i | 0 <= i < |g.bullets|
      ensures r.0.bullets[i].pos == g.bullets[i].pos
    {
      assert r.0.bullets[i] == g.bullets[i].(active := r.0.bullets[i].active);
    }
  }

  /**
   * What a frame makes of drone `e`, given where the bullets are: it moves,
   * goes down on reaching the player or the ground, and is wounded if a
   * bullet is on it after the move.
   */
  function DroneAfter(bs: seq<Bullet>, e: Enemy, screen: Screen): Enemy {
    var pos := e.pos.Plus(e.vel);
    var moved := e.(pos := pos, active := e.active && !ReachesPlayer(pos, screen) && !ReachesGround(pos, screen));
    if LastHit(bs, pos).Some? then Wound(moved) else moved
  }

  /** Processing a drone leaves it as `DroneAfter` says, whatever else the game holds. */
  lemma ProcessEnemyIsDroneAfter(g: Game, e: Enemy, screen: Screen)
    ensures ProcessEnemy(g, e, screen).1 == DroneAfter(g.bullets, e, screen)
  {
    var (g1, e1) := EnemyUpdate(g, e, screen);
    assert g1.bullets == g.bullets;
  }

  /** What becomes of a drone depends on the game only through where the bullets are: spent bullets still count in the scan. */
  lemma DroneAfterSamePlaces(bs: seq<Bullet>, cs: seq<Bullet>, es: seq<Enemy>, screen: Screen)
    requires SamePlaces(bs, cs)
    ensures forall i :: 0 <= i < |es| ==> DroneAfter(bs, es[i], screen) == DroneAfter(cs, es[i], screen)
  {
    forall i | 0 <= i < |es|
      ensures DroneAfter(bs, es[i], screen) == DroneAfter(cs, es[i], screen)
    {
      LastHitSame(bs, cs, es[i].pos.Plus(es[i].vel));
    }
  }

  /**
   * The drone pass leaves each drone as processing it against the state at
   * the start of the pass would: an earlier drone's hit only spends a
   * bullet, and a spent bullet still stops the scan.
   */
  lemma EnemyPassEach(g: Game, es: seq<Enemy>, screen: Screen)
    ensures forall i :: 0 <= i < |es| ==> EnemyPass(g, es, screen).1[i] == ProcessEnemy(g, es[i], screen).1
  {
    forall i | 0 <= i < |es|
      ensures EnemyPass(g, es, screen).1[i] == ProcessEnemy(g, es[i], screen).1
    {
      ProcessEnemyIsDroneAfter(g, es[i], screen);
    }
  }

  /** Whether drone `e` is shot down this frame: after its move a bullet is on it, and one hit point is all it has. */
  predicate ShotDown(bs: seq<Bullet>, e: Enemy) {
    LastHit(bs, e.pos.Plus(e.vel)).Some? && e.hp <= 1
  }

  /** What drone `e` leaves behind this frame: its power-up, if it carries one and is shot down. */
  function DropOf(bs: seq<Bullet>, e: Enemy): seq<PowerUp> {
    if ShotDown(bs, e) && e.drop.Some? then [NewPowerUp(e.drop.value, e.pos.Plus(e.vel))] else []
  }

  /** The hit points drone `e` costs the player this frame: 20 on reaching the player, 10 on reaching the ground. */
  function DamageOf(e: Enemy, screen: Screen): nat {
    (if ReachesPlayer(e.pos.Plus(e.vel), screen) then ContactDamage else 0)
    + (if ReachesGround(e.pos.Plus(e.vel), screen) then GroundDamage else 0)
  }

  /** The player's hit points after `damage` in one frame: nothing with the shield up or no damage, else lowered and floored at zero. */
  function HpAfter(g: Game, damage: nat): int {
    if Shielded(g) || damage == 0 then g.player.hp
    else if g.player.hp - damage <= 0 then 0 else g.player.hp - damage
  }

  /** What processing one drone does to the game, stated against the state before it. */
  lemma ProcessEnemyEffects(g: Game, e: Enemy, screen: Screen)
    ensures ProcessEnemy(g, e, screen).0.totalDronesShot == g.totalDronesShot + if ShotDown(g.bullets, e) then 1 else 0
    ensures ProcessEnemy(g, e, screen).0.powerUps == g.powerUps + DropOf(g.bullets, e)
    ensures ProcessEnemy(g, e, screen).0.player.hp == HpAfter(g, DamageOf(e, screen))
    ensures ProcessEnemy(g, e, screen).0.loadout == g.loadout
    ensures forall i :: 0 <= i < |g.bullets| ==>
      (ProcessEnemy(g, e, screen).0.bullets[i].active <==>
        g.bullets[i].active && LastHit(g.bullets, e.pos.Plus(e.vel)) != Some(i))
  {
    var (g1, e1) := EnemyUpdate(g, e, screen);
    assert g1.bullets == g.bullets && g1.powerUps == g.powerUps && g1.loadout == g.loadout;
    assert g1.totalDronesShot == g.totalDronesShot;
    assert e1.pos == e.pos.Plus(e.vel) && e1.hp == e.hp && e1.drop == e.drop;
    assert g1.player.hp == HpAfter(g, DamageOf(e, screen));
    match LastHit(g1.bullets, e1.pos)
    case None =>
    case Some(j) =>
      var r := Strike(g1, e1, j);
      assert r.0.(bullets := g1.bullets) == EnemyTakeDamage(g1, e1).0;
  }

  /** How many of `es` are shot down this frame. */
  function ShotCount(bs: seq<Bullet>, es: seq<Enemy>): nat {
    if |es| == 0 then 0
    else ShotCount(bs, es[..|es| - 1]) + if ShotDown(bs, es[|es| - 1]) then 1 else 0
  }

  /** The power-ups `es` drop this frame, in the order the loop appends them: last drone first. */
  function Drops(bs: seq<Bullet>, es: seq<Enemy>): seq<PowerUp> {
    if |es| == 0 then [] else DropOf(bs, es[|es| - 1]) + Drops(bs, es[..|es| - 1])
  }

  /** The hit points `es` cost the player this frame, before the floor at zero. */
  function DamageTotal(es: seq<Enemy>, screen: Screen): nat {
    if |es| == 0 then 0 else DamageTotal(es[..|es| - 1], screen) + DamageOf(es[|es| - 1], screen)
  }

  /** Whether some drone of `es` finds bullet `i` last on it after its move, and so spends it. */
  predicate Spent(bs: seq<Bullet>, es: seq<Enemy>, i: nat) {
    |es| > 0 && (LastHit(bs, es[|es| - 1].pos.Plus(es[|es| - 1].vel)) == Some(i) || Spent(bs, es[..|es| - 1], i))
  }

  /** The frame's kills, drops and spent bullets depend only on where the bullets are. */
  lemma {:induction false} PassTalliesSamePlaces(bs: seq<Bullet>, cs: seq<Bullet>, es: seq<Enemy>)
    requires SamePlaces(bs, cs)
    ensures ShotCount(bs, es) == ShotCount(cs, es)
    ensures Drops(bs, es) == Drops(cs, es)
    ensures forall i: nat :: Spent(bs, es, i) == Spent(cs, es, i)
    decreases |es|
  {
    if |es| > 0 {
      LastHitSame(bs, cs, es[|es| - 1].pos.Plus(es[|es| - 1].vel));
      PassTalliesSamePlaces(bs, cs, es[..|es| - 1]);
    }
  }

  /** The pass over no drones changes nothing. */
  lemma EnemyPassEmpty(g: Game, es: seq<Enemy>, screen: Screen)
    requires |es| == 0
    ensures EnemyPass(g, es, screen).0 == g
  {
  }

  /** Two stretches of damage in one frame lower hit points as their sum does. */
  lemma HpAfterAdds(g: Game, h: Game, d1: nat, d2: nat)
    requires h.player.hp == HpAfter(g, d1) && Shielded(h) == Shielded(g)
    ensures HpAfter(h, d2) == HpAfter(g, d1 + d2)
  {
  }

  lemma ConcatAssoc<T>(a: seq<T>, b: seq<T>, c: seq<T>)
    ensures (a + b) + c == a + (b + c)
  {
  }

  /**
   * One turn of the drone pass, with the drone-processing step summed up by
   * its effects: the rest of the pass runs on `g1`.
   */
  lemma PassStep(g: Game, es: seq<Enemy>, screen: Screen) returns (g1: Game)
    requires |es| > 0
    ensures EnemyPass(g, es, screen).0 == EnemyPass(g1, es[..|es| - 1], screen).0
    ensures g1.totalDronesShot == g.totalDronesShot + if ShotDown(g.bullets, es[|es| - 1]) then 1 else 0
    ensures g1.powerUps == g.powerUps + DropOf(g.bullets, es[|es| - 1])
    ensures g1.player.hp == HpAfter(g, DamageOf(es[|es| - 1], screen))
    ensures g1.loadout == g.loadout
    ensures SamePlaces(g1.bullets, g.bullets)
    ensures forall i :: 0 <= i < |g.bullets| ==>
      (g1.bullets[i].active <==> g.bullets[i].active && LastHit(g.bullets, es[|es| - 1].pos.Plus(es[|es| - 1].vel)) != Some(i))
  {
    g1 := ProcessEnemy(g, es[|es| - 1], screen).0;
    ProcessEnemyEffects(g, es[|es| - 1], screen);
    ProcessEnemyKeepsPlaces(g, es[|es| - 1], screen);
  }

  /** The drone pass counts one kill, and scores 100, per drone shot down. */
  lemma {:induction false} EnemyPassKills(g: Game, es: seq<Enemy>, screen: Screen)
    ensures EnemyPass(g, es, screen).0.totalDronesShot == g.totalDronesShot + ShotCount(g.bullets, es)
    ensures EnemyPass(g, es, screen).0.score == g.score + KillScore * ShotCount(g.bullets, es)
    decreases |es|
  {
    if |es| > 0 {
      var init := es[..|es| - 1];
      var g1 := PassStep(g, es, screen);
      EnemyPassKills(g1, init, screen);
      PassTalliesSamePlaces(g1.bullets, g.bullets, init);
    }
  }

  /** The drone pass appends the drops of the drones shot down, last drone first, and nothing else. */
  lemma {:induction false} EnemyPassDrops(g: Game, es: seq<Enemy>, screen: Screen)
    ensures EnemyPass(g, es, screen).0.powerUps == g.powerUps + Drops(g.bullets, es)
    decreases |es|
  {
    if |es| > 0 {
      var init := es[..|es| - 1];
      var g1 := PassStep(g, es, screen);
      EnemyPassDrops(g1, init, screen);
      PassTalliesSamePlaces(g1.bullets, g.bullets, init);
      var mine, rest := DropOf(g.bullets, es[|es| - 1]), Drops(g.bullets, init);
      assert Drops(g.bullets, es) == mine + rest;
      ConcatAssoc(g.powerUps, mine, rest);
    }
  }

  /**
   * The drone pass costs the player the damage of every drone reaching the
   * player or the ground, floored at zero, unless the shield is up.
   */
  lemma {:induction false} EnemyPassDamage(g: Game, es: seq<Enemy>, screen: Screen)
    ensures EnemyPass(g, es, screen).0.player.hp == HpAfter(g, DamageTotal(es, screen))
    ensures EnemyPass(g, es, screen).0.loadout == g.loadout
    decreases |es|
  {
    if |es| > 0 {
      var init := es[..|es| - 1];
      var g1 := PassStep(g, es, screen);
      EnemyPassDamage(g1, init, screen);
      assert Shielded(g1) == Shielded(g);
      HpAfterAdds(g, g1, DamageOf(es[|es| - 1], screen), DamageTotal(init, screen));
      assert DamageTotal(es, screen) == DamageOf(es[|es| - 1], screen) + DamageTotal(init, screen);
    } else {
      EnemyPassEmpty(g, es, screen);
    }
  }

  /** The drone pass spends exactly the bullets some drone finds last on it, and no spent bullet comes back. */
  lemma {:induction false} EnemyPassSpends(g: Game, es: seq<Enemy>, screen: Screen)
    ensures |EnemyPass(g, es, screen).0.bullets| == |g.bullets|
    ensures forall i :: 0 <= i < |g.bullets| ==>
      (EnemyPass(g, es, screen).0.bullets[i].active <==> g.bullets[i].active && !Spent(g.bullets, es, i))
    decreases |es|
  {
    if |es| > 0 {
      var init := es[..|es| - 1];
      var g1 := PassStep(g, es, screen);
      EnemyPassSpends(g1, init, screen);
      PassTalliesSamePlaces(g1.bullets, g.bullets, init);
    }
  }

  /** Every drop is a fresh, active power-up. */
  lemma {:induction false} DropsAreLive(bs: seq<Bullet>, es: seq<Enemy>)
    ensures LivePowerUps(Drops(bs, es))
    decreases |es|
  {
    if |es| > 0 {
      DropsAreLive(bs, es[..|es| - 1]);
    }
  }

  /** Power-ups live before the drone pass are still live after it, and so are the drops. */
  lemma EnemyPassKeepsPowerUpsLive(g: Game, es: seq<Enemy>, screen: Screen)
    ensures LivePowerUps(g.powerUps) ==> LivePowerUps(EnemyPass(g, es, screen).0.powerUps)
  {
    EnemyPassDrops(g, es, screen);
    DropsAreLive(g.bullets, es);
  }

  // ---------------------------------------------------------------------------
  // Power-ups
  // ---------------------------------------------------------------------------

  /** Where PowerUp.update moves a power-up: the bob along the sine of its advanced timer, then the fall. */
  function DriftPos(p: PowerUp, input: FrameInput): Pos {
    Pos(p.pos.x, p.pos.y + input.sine(p.floatTimer + 0.05) * 0.5 + PowerUpFallSpeed)
  }

  /** Whether a power-up touches the player once it has moved this frame. */
  predicate Collects(p: PowerUp, input: FrameInput) {
    Touching(DriftPos(p, input), input.screen.PlayerPos(), PlayerRadius + PowerUpRadius)
  }

  /** How many of `ps` the player collects this frame. */
  function CollectedCount(ps: seq<PowerUp>, input: FrameInput): nat {
    if |ps| == 0 then 0
    else CollectedCount(ps[..|ps| - 1], input) + if Collects(ps[|ps| - 1], input) then 1 else 0
  }

  /**
   * PowerUp.update: bob and fall; touching the player collects it, and falling
   * 50 pixels below the canvas deactivates it.
   */
  function PowerUpUpdate(g: Game, p: PowerUp, input: FrameInput): (r: (Game, PowerUp))
    ensures r.1.floatTimer == p.floatTimer + 0.05
    ensures r.1.pos == Pos(p.pos.x, p.pos.y + input.sine(p.floatTimer + 0.05) * 0.5 + PowerUpFallSpeed)
    ensures r.1 == p.(floatTimer := r.1.floatTimer, pos := r.1.pos, active := r.1.active)
    ensures r.1.active <==>
      && p.active
      && !Touching(r.1.pos, input.screen.PlayerPos(), PlayerRadius + PowerUpRadius)
      && r.1.pos.y <= input.screen.height + PowerUpFallMargin
    ensures Touching(r.1.pos, input.screen.PlayerPos(), PlayerRadius + PowerUpRadius) ==>
      r.0 == CollectPowerUp(g, p).0 && r.0.powerUpsCollected == g.powerUpsCollected + 1
    ensures !Touching(r.1.pos, input.screen.PlayerPos(), PlayerRadius + PowerUpRadius) ==> r.0 == g
    ensures r.0.powerUpsCollected == g.powerUpsCollected + if Collects(p, input) then 1 else 0
    ensures r.0.(powerUpsCollected := g.powerUpsCollected, loadout := g.loadout, player := g.player) == g
    ensures Core(g) ==> Core(r.0)
  {
    var timer := p.floatTimer + 0.05;
    var y := p.pos.y + input.sine(timer) * 0.5 + PowerUpFallSpeed;
    var p1 := p.(floatTimer := timer, pos := Pos(p.pos.x, y));
    var (g1, p2) :=
      if Touching(p1.pos, input.screen.PlayerPos(), PlayerRadius + PowerUpRadius)
      then CollectPowerUp(g, p1) else (g, p1);
    (g1, if y > input.screen.height + PowerUpFallMargin then p2.(active := false) else p2)
  }

  /**
   * The power-up loop, last first; returns every power-up as processed, in
   * list order. A power-up's update does not depend on the game, so each one
   * comes out as it would alone, and the counter rises once per power-up the
   * player touches.
   */
  function PowerUpPass(g: Game, ps: seq<PowerUp>, input: FrameInput): (r: (Game, seq<PowerUp>))
    decreases |ps|
    ensures |r.1| == |ps|
    ensures r.0.(powerUpsCollected := g.powerUpsCollected, loadout := g.loadout, player := g.player) == g
    ensures Core(g) ==> Core(r.0)
  {
    if |ps| == 0 then (g, [])
    else
      var (g1, last) := PowerUpUpdate(g, ps[|ps| - 1], input);
      var (g2, rest) := PowerUpPass(g1, ps[..|ps| - 1], input);
      (g2, rest + [last])
  }

  /** A power-up's update reads only the power-up and the frame input, never the game. */
  lemma PowerUpUpdateIgnoresGame(g: Game, h: Game, p: PowerUp, input: FrameInput)
    ensures PowerUpUpdate(g, p, input).1 == PowerUpUpdate(h, p, input).1
  {
  }

  /**
   * The power-up pass leaves each power-up as its own update would, and the
   * counter rises by the number of power-ups that touch the player.
   */
  lemma {:induction false} PowerUpPassEach(g: Game, ps: seq<PowerUp>, input: FrameInput)
    ensures forall i :: 0 <= i < |ps| ==> PowerUpPass(g, ps, input).1[i] == PowerUpUpdate(g, ps[i], input).1
    ensures PowerUpPass(g, ps, input).0.powerUpsCollected == g.powerUpsCollected + CollectedCount(ps, input)
    decreases |ps|
  {
    if |ps| > 0 {
      var (g1, last) := PowerUpUpdate(g, ps[|ps| - 1], input);
      var init := ps[..|ps| - 1];
      PowerUpPassEach(g1, init, input);
      assert PowerUpPass(g, ps, input).1 == PowerUpPass(g1, init, input).1 + [last];
      forall i | 0 <= i < |init|
        ensures PowerUpPass(g, ps, input).1[i] == PowerUpUpdate(g, ps[i], input).1
      {
        assert ps[i] == init[i];
        PowerUpUpdateIgnoresGame(g1, g, init[i], input);
      }
    }
  }

  /** How many of `ps` of kind `kind` the player collects this frame. */
  function KindCount(ps: seq<PowerUp>, input: FrameInput, kind: PowerUpKind): nat {
    if |ps| == 0 then 0
    else KindCount(ps[..|ps| - 1], input, kind) + if Collects(ps[|ps| - 1], input) && ps[|ps| - 1].kind == kind then 1 else 0
  }

  /** An ability after `n` pickups of its kind in one frame: untouched without one, otherwise freshly at full duration. */
  function AfterPickups(a: Ability, n: nat, duration: int): Ability {
    if n == 0 then a else Ability(true, duration)
  }

  /** Hit points after `n` health boosts in one frame: thirty each, capped at the maximum once. */
  function HpAfterBoosts(p: Player, n: nat): int {
    if n == 0 then p.hp
    else if p.maxHp < p.hp + HealthBoostAmount * n then p.maxHp else p.hp + HealthBoostAmount * n
  }

  /**
   * One turn of the power-up pass, with the update of the last power-up
   * summed up by its effects: the rest of the pass runs on `g1`.
   */
  lemma PowerUpStep(g: Game, ps: seq<PowerUp>, input: FrameInput) returns (g1: Game)
    requires |ps| > 0
    ensures PowerUpPass(g, ps, input).0 == PowerUpPass(g1, ps[..|ps| - 1], input).0
    ensures !Collects(ps[|ps| - 1], input) ==> g1 == g
    ensures var p := ps[|ps| - 1];
      && g1.loadout.abilities.doubleShot ==
           AfterPickups(g.loadout.abilities.doubleShot, if Collects(p, input) && p.kind == DoubleShot then 1 else 0, DoubleShotDuration)
      && g1.loadout.abilities.rapidFire ==
           AfterPickups(g.loadout.abilities.rapidFire, if Collects(p, input) && p.kind == RapidFire then 1 else 0, RapidFireDuration)
      && g1.loadout.abilities.shield ==
           AfterPickups(g.loadout.abilities.shield, if Collects(p, input) && p.kind == Shield then 1 else 0, ShieldDuration)
      && g1.loadout.abilities.healthBoost == g.loadout.abilities.healthBoost
      && g1.loadout.shootInterval == (if Collects(p, input) && p.kind == RapidFire then RapidFireInterval else g.loadout.shootInterval)
      && g1.player.hp == HpAfterBoosts(g.player, if Collects(p, input) && p.kind == HealthBoost then 1 else 0)
      && g1.player.maxHp == g.player.maxHp
  {
    g1 := PowerUpUpdate(g, ps[|ps| - 1], input).0;
  }

  /**
   * The power-up pass switches on, at full duration, every ability whose
   * power-up the player touches, rapid fire with the 100 ms interval, and
   * leaves the others as they were.
   */
  lemma {:induction false} PowerUpPassAbilities(g: Game, ps: seq<PowerUp>, input: FrameInput)
    ensures var l := PowerUpPass(g, ps, input).0.loadout;
      && l.abilities.doubleShot == AfterPickups(g.loadout.abilities.doubleShot, KindCount(ps, input, DoubleShot), DoubleShotDuration)
      && l.abilities.rapidFire == AfterPickups(g.loadout.abilities.rapidFire, KindCount(ps, input, RapidFire), RapidFireDuration)
      && l.abilities.shield == AfterPickups(g.loadout.abilities.shield, KindCount(ps, input, Shield), ShieldDuration)
      && l.abilities.healthBoost == g.loadout.abilities.healthBoost
      && l.shootInterval == if KindCount(ps, input, RapidFire) > 0 then RapidFireInterval else g.loadout.shootInterval
    decreases |ps|
  {
    if |ps| > 0 {
      var g1 := PowerUpStep(g, ps, input);
      PowerUpPassAbilities(g1, ps[..|ps| - 1], input);
    }
  }

  /** The power-up pass heals 30 per health boost the player touches, capped at the maximum. */
  lemma {:induction false} PowerUpPassHeals(g: Game, ps: seq<PowerUp>, input: FrameInput)
    ensures PowerUpPass(g, ps, input).0.player.hp == HpAfterBoosts(g.player, KindCount(ps, input, HealthBoost))
    ensures PowerUpPass(g, ps, input).0.player.maxHp == g.player.maxHp
    decreases |ps|
  {
    if |ps| > 0 {
      var g1 := PowerUpStep(g, ps, input);
      PowerUpPassHeals(g1, ps[..|ps| - 1], input);
    }
  }

  /** A pass in which the player touches no power-up leaves the game as it was. */
  lemma {:induction false} PowerUpPassNoTouch(g: Game, ps: seq<PowerUp>, input: FrameInput)
    requires forall i :: 0 <= i < |ps| ==> !Collects(ps[i], input)
    ensures PowerUpPass(g, ps, input).0 == g
    decreases |ps|
  {
    if |ps| > 0 {
      var g1 := PowerUpStep(g, ps, input);
      assert !Collects(ps[|ps| - 1], input);
      PowerUpPassNoTouch(g1, ps[..|ps| - 1], input);
    }
  }

  // ---------------------------------------------------------------------------
  // The frame
  // ---------------------------------------------------------------------------

  /** Every bullet updated; exactly the updated bullets still active survive. */
  function UpdateBullets(bs: seq<Bullet>, screen: Screen): (r: seq<Bullet>)
    ensures TrailsBounded(bs) ==> TrailsBounded(r)
    ensures forall i :: 0 <= i < |r| ==> r[i].active
    ensures forall i :: 0 <= i < |r| ==> exists k :: 0 <= k < |bs| && r[i] == UpdateBullet(bs[k], screen)
    ensures forall k :: 0 <= k < |bs| && UpdateBullet(bs[k], screen).active ==> UpdateBullet(bs[k], screen) in r
  {
    var moved := MapSeq(bs, b => UpdateBullet(b, screen));
    FilterMembers(moved, IsLiveBullet);
    Filter(moved, IsLiveBullet)
  }

  /** The bookkeeping half of a frame: ability clocks, the held trigger, the spawn schedule. */
  function FrameTimers(g: Game, input: FrameInput): (r: Game)
    ensures r.wave >= g.wave
    ensures r.active == g.active && r.missionsPlayed == g.missionsPlayed
    ensures r.score == g.score && r.totalDronesShot == g.totalDronesShot && r.powerUps == g.powerUps
    ensures r.loadout == UpdateAbilities(g.loadout, FrameMs)
    ensures r.player.hp == g.player.hp && r.player.maxHp == g.player.maxHp
    ensures Core(g) ==> Core(r)
    ensures LiveEnemies(g.enemies) ==> LiveEnemies(r.enemies)
  {
    var g1 := g.(loadout := UpdateAbilities(g.loadout, FrameMs));
    var g2 := UpdateShooting(g1, FrameMs, input.now, input.shot);
    SpawnStep(g2, FrameMs, input.spawn)
  }

  /** The bullet loop: every bullet updated, the inactive ones removed. */
  function SweepBullets(g: Game, screen: Screen): (r: Game)
    ensures r == g.(bullets := UpdateBullets(g.bullets, screen))
    ensures Core(g) ==> Core(r)
  {
    g.(bullets := UpdateBullets(g.bullets, screen))
  }

  /** The drone loop: every drone processed, the inactive ones removed. */
  function SweepDrones(g: Game, screen: Screen): (r: Game)
    ensures r.wave == g.wave
    ensures Core(g) ==> Core(r)
    ensures LiveEnemies(g.enemies) ==> LiveEnemies(r.enemies)
    ensures LivePowerUps(g.powerUps) ==> LivePowerUps(r.powerUps)
    ensures EndsAtMostOnce(g, r) && KeepsTally(g, r)
  {
    var (g1, es) := EnemyPass(g, g.enemies, screen);
    EnemyPassProcessed(g, g.enemies, screen);
    EnemyPassKeepsPowerUpsLive(g, g.enemies, screen);
    var kept := Filter(es, IsLiveEnemy);
    FilterMembers(es, IsLiveEnemy);
    assert LiveEnemies(g.enemies) ==> forall x :: x in es && x.active ==> x.hp == 1;
    g1.(enemies := kept)
  }

  /** Filtering drones moved against the bullets `bs` keeps exactly the moved drones still active. */
  lemma DroneAfterSurvivors(bs: seq<Bullet>, es: seq<Enemy>, ps: seq<Enemy>, screen: Screen)
    requires |ps| == |es|
    requires forall k :: 0 <= k < |es| ==> ps[k] == DroneAfter(bs, es[k], screen)
    ensures forall i :: 0 <= i < |Filter(ps, IsLiveEnemy)| ==>
      exists k :: 0 <= k < |es| && Filter(ps, IsLiveEnemy)[i] == DroneAfter(bs, es[k], screen)
    ensures forall k :: 0 <= k < |es| && DroneAfter(bs, es[k], screen).active ==>
      DroneAfter(bs, es[k], screen) in Filter(ps, IsLiveEnemy)
  {
    var kept := Filter(ps, IsLiveEnemy);
    FilterMembers(ps, IsLiveEnemy);
    forall i | 0 <= i < |kept|
      ensures exists k :: 0 <= k < |es| && kept[i] == DroneAfter(bs, es[k], screen)
    {
      var k :| 0 <= k < |ps| && ps[k] == kept[i];
      assert kept[i] == DroneAfter(bs, es[k], screen);
    }
  }

  /** Filtering the drone pass keeps exactly the processed drones still active. */
  lemma PassSurvivors(g: Game, es: seq<Enemy>, screen: Screen)
    ensures forall i :: 0 <= i < |Filter(EnemyPass(g, es, screen).1, IsLiveEnemy)| ==>
      exists k :: 0 <= k < |es| && Filter(EnemyPass(g, es, screen).1, IsLiveEnemy)[i] == ProcessEnemy(g, es[k], screen).1
    ensures forall k :: 0 <= k < |es| && ProcessEnemy(g, es[k], screen).1.active ==>
      ProcessEnemy(g, es[k], screen).1 in Filter(EnemyPass(g, es, screen).1, IsLiveEnemy)
  {
    var kept := Filter(EnemyPass(g, es, screen).1, IsLiveEnemy);
    DroneAfterSurvivors(g.bullets, es, EnemyPass(g, es, screen).1, screen);
    forall k | 0 <= k < |es|
      ensures ProcessEnemy(g, es[k], screen).1 == DroneAfter(g.bullets, es[k], screen)
    {
      ProcessEnemyIsDroneAfter(g, es[k], screen);
    }
    forall i | 0 <= i < |kept|
      ensures exists k :: 0 <= k < |es| && kept[i] == ProcessEnemy(g, es[k], screen).1
    {
      var k :| 0 <= k < |es| && kept[i] == DroneAfter(g.bullets, es[k], screen);
      assert kept[i] == ProcessEnemy(g, es[k], screen).1;
    }
  }

  /** The drone sweep keeps the live drones of the pass, in order. */
  lemma SweepDronesKeeps(g: Game, screen: Screen)
    ensures SweepDrones(g, screen).enemies == Filter(EnemyPass(g, g.enemies, screen).1, IsLiveEnemy)
  {
  }

  /** The drones left after the sweep are exactly the processed drones still active. */
  lemma SweepDronesSurvivors(g: Game, screen: Screen)
    ensures forall i :: 0 <= i < |SweepDrones(g, screen).enemies| ==>
      exists k :: 0 <= k < |g.enemies| && SweepDrones(g, screen).enemies[i] == ProcessEnemy(g, g.enemies[k], screen).1
    ensures forall k :: 0 <= k < |g.enemies| && ProcessEnemy(g, g.enemies[k], screen).1.active ==>
      ProcessEnemy(g, g.enemies[k], screen).1 in SweepDrones(g, screen).enemies
  {
    SweepDronesKeeps(g, screen);
    PassSurvivors(g, g.enemies, screen);
  }

  /** The power-up loop: every power-up updated, the inactive ones removed. */
  function SweepPowerUps(g: Game, input: FrameInput): (r: Game)
    ensures forall i :: 0 <= i < |r.powerUps| ==>
      exists k :: 0 <= k < |g.powerUps| && r.powerUps[i] == PowerUpUpdate(g, g.powerUps[k], input).1
    ensures forall k :: 0 <= k < |g.powerUps| && PowerUpUpdate(g, g.powerUps[k], input).1.active ==>
      PowerUpUpdate(g, g.powerUps[k], input).1 in r.powerUps
    ensures r.powerUpsCollected == g.powerUpsCollected + CollectedCount(g.powerUps, input)
    ensures LivePowerUps(r.powerUps)
    ensures r.wave == g.wave && r.active == g.active && r.missionsPlayed == g.missionsPlayed
    ensures r.score == g.score && r.totalDronesShot == g.totalDronesShot && r.enemies == g.enemies
    ensures Core(g) ==> Core(r)
  {
    var (g1, ps) := PowerUpPass(g, g.powerUps, input);
    PowerUpPassEach(g, g.powerUps, input);
    FilterMembers(ps, IsLivePowerUp);
    g1.(powerUps := Filter(ps, IsLivePowerUp))
  }

  /** The entity half of a frame: the bullet, drone and power-up sweeps. */
  function FrameSweeps(g: Game, input: FrameInput): (r: Game)
    ensures r.wave == g.wave
    ensures Core(g) && LiveEnemies(g.enemies) ==> Valid(r)
    ensures EndsAtMostOnce(g, r) && KeepsTally(g, r)
  {
    SweepPowerUps(SweepDrones(SweepBullets(g, input.screen), input.screen), input)
  }

  /** One frame of gameLoop; nothing happens once the game is over. */
  function Frame(g: Game, input: FrameInput): (r: Game)
    ensures !g.active ==> r == g
    ensures g.active ==> r == FrameSweeps(FrameTimers(g, input), input)
    ensures Valid(g) ==> Valid(r)
    ensures EndsAtMostOnce(g, r) && KeepsTally(g, r)
    ensures r.wave >= g.wave
  {
    if !g.active then g else FrameSweeps(FrameTimers(g, input), input)
  }
}

=== FILE: options.dfy ===
/** A value that may be absent: used where the source yields `NaN`, no hit, or no drop. */
module Options {

  datatype Option<+T> = None | Some(value: T)
}

=== FILE: session.dfy ===
/**
 * Sessions: the page's event handlers applied one after another, and the
 * properties that hold of every state a session reaches.
 */
module Session {
  import opened Abilities
  import opened Entities
  import opened Game
  import opened GameLoop

  /** What can happen to the page: a frame, the trigger pressed or released, a new game started. */
  datatype Event = Tick(input: FrameInput) | Press(now: int, shot: Shot) | Release | NewGame

  function Step(g: Game, ev: Event): Game {
    match ev
    case Tick(input) => Frame(g, input)
    case Press(now, shot) => PointerDown(g, now, shot)
    case Release => PointerUp(g)
    case NewGame => InitGame(g)
  }

  function Run(g: Game, evs: seq<Event>): Game {
    if |evs| == 0 then g else Step(Run(g, evs[..|evs| - 1]), evs[|evs| - 1])
  }

  /** Events that stay inside one game. */
  predicate WithinOneGame(evs: seq<Event>) {
    forall k :: 0 <= k < |evs| ==> !evs[k].NewGame?
  }

  /** The page starts in a state that satisfies the invariant. */
  lemma BootIsValid(highScore: int, missionsPlayed: int, totalDronesShot: int)
    ensures Valid(Boot(highScore, missionsPlayed, totalDronesShot))
    ensures !Boot(highScore, missionsPlayed, totalDronesShot).active
  {
  }

  lemma StepKeepsValid(g: Game, ev: Event)
    requires Valid(g)
    ensures Valid(Step(g, ev))
  {
  }

  /**
   * Every state a session reaches keeps hit points in [0, maxHp], the fire
   * interval matched to rapid fire, the spawn interval in [600, 1500], the
   * wave in step with the difficulty, trails of at most five positions, and
   * only live drones and power-ups in play.
   */
  lemma {:induction false} RunKeepsValid(g: Game, evs: seq<Event>)
    requires Valid(g)
    ensures Valid(Run(g, evs))
  {
    if |evs| > 0 {
      RunKeepsValid(g, evs[..|evs| - 1]);
      StepKeepsValid(Run(g, evs[..|evs| - 1]), evs[|evs| - 1]);
    }
  }

  /** Hit points stay within [0, 100] from page load onwards, whatever happens. */
  lemma HpAlwaysInRange(highScore: int, missionsPlayed: int, totalDronesShot: int, evs: seq<Event>)
    ensures 0 <= Run(Boot(highScore, missionsPlayed, totalDronesShot), evs).player.hp <= PlayerMaxHp
    ensures MinSpawnInterval <= Run(Boot(highScore, missionsPlayed, totalDronesShot), evs).spawnInterval
  {
    BootIsValid(highScore, missionsPlayed, totalDronesShot);
    RunKeepsValid(Boot(highScore, missionsPlayed, totalDronesShot), evs);
  }

  lemma {:induction false} RunKeepsTally(g: Game, evs: seq<Event>)
    requires WithinOneGame(evs)
    ensures KeepsTally(g, Run(g, evs))
  {
    if |evs| > 0 {
      RunKeepsTally(g, evs[..|evs| - 1]);
    }
  }

  /**
   * Within a game the score is 100 times the drones shot since it started, so
   * the game-over screen's kill count is exactly this game's kills.
   */
  lemma ScoreCountsThisGamesKills(g0: Game, evs: seq<Event>)
    requires WithinOneGame(evs)
    ensures Run(InitGame(g0), evs).score % KillScore == 0
    ensures Run(InitGame(g0), evs).score / KillScore == Run(InitGame(g0), evs).totalDronesShot - g0.totalDronesShot
    ensures DronesShownAtGameOver(Run(InitGame(g0), evs)) == (Run(InitGame(g0), evs).totalDronesShot - g0.totalDronesShot) as real
  {
    RunKeepsTally(InitGame(g0), evs);
    GameOverShowsThisGamesKills(Run(InitGame(g0), evs), g0.totalDronesShot);
  }

  /** Within a game the wave shown never goes down. */
  lemma {:induction false} WaveNeverDrops(g: Game, evs: seq<Event>)
    requires WithinOneGame(evs)
    ensures Run(g, evs).wave >= g.wave
  {
    if |evs| > 0 {
      WaveNeverDrops(g, evs[..|evs| - 1]);
    }
  }

  /** A game, once over, stays over until a new one starts, and is counted as one mission. */
  lemma {:induction false} OneMissionPerGame(g: Game, evs: seq<Event>)
    requires WithinOneGame(evs)
    ensures EndsAtMostOnce(g, Run(g, evs))
  {
    if |evs| > 0 {
      OneMissionPerGame(g, evs[..|evs| - 1]);
    }
  }
}

=== FILE: sorting.dfy ===
/** Ascending order on sequences of reals, and a reference sort that the median is stated against. */
module Sorting {

  predicate SortedAsc(s: seq<real>) {
    forall i, j :: 0 <= i < j < |s| ==> s[i] <= s[j]
  }

  /** Inserts `x` into a sorted sequence, keeping it sorted. */
  function Insert(x: real, s: seq<real>): (r: seq<real>)
    requires SortedAsc(s)
    ensures SortedAsc(r)
    ensures multiset(r) == multiset(s) + multiset{x}
    ensures |r| == |s| + 1
    ensures r[0] == x || (|s| > 0 && r[0] == s[0])
  {
    if |s| == 0 then [x]
    else if x <= s[0] then [x] + s
    else
      var tail := Insert(x, s[1..]);
      assert s == [s[0]] + s[1..];
      assert s[0] <= tail[0];
      [s[0]] + tail
  }

  /** Insertion sort: a sorted permutation of its input. */
  function Sort(s: seq<real>): (r: seq<real>)
    ensures SortedAsc(r)
    ensures multiset(r) == multiset(s)
    ensures |r| == |s|
  {
    if |s| == 0 then []
    else
      assert s == [s[0]] + s[1..];
      var r := Insert(s[0], Sort(s[1..]));
      assert |multiset(r)| == |r|;
      r
  }

  /** The head of a non-empty sorted sequence is below every element of it. */
  lemma HeadIsLeast(s: seq<real>, x: real)
    requires SortedAsc(s) && x in s
    ensures s[0] <= x
  {
  }

  /** Dropping the head of a sequence drops one copy of it from the multiset. */
  lemma TailMultiset(s: seq<real>)
    requires |s| > 0
    ensures multiset(s[1..]) == multiset(s) - multiset{s[0]}
  {
    assert s == [s[0]] + s[1..];
    assert multiset(s) == multiset{s[0]} + multiset(s[1..]);
  }

  /** There is only one sorted arrangement of a multiset of reals. */
  lemma {:induction false} SortedUnique(a: seq<real>, b: seq<real>)
    requires SortedAsc(a) && SortedAsc(b)
    requires multiset(a) == multiset(b)
    ensures a == b
  {
    assert |a| == |multiset(a)| == |multiset(b)| == |b|;
    if |a| > 0 {
      assert a[0] in multiset(b);
      HeadIsLeast(b, a[0]);
      assert b[0] in multiset(a);
      HeadIsLeast(a, b[0]);
      assert a[0] == b[0];
      TailMultiset(a);
      TailMultiset(b);
      SortedUnique(a[1..], b[1..]);
      assert a == [a[0]] + a[1..];
      assert b == [b[0]] + b[1..];
    }
  }
}

=== FILE: speedtest.dfy ===
/**
 * The arithmetic of the speed-test page: the parallel download's progress bookkeeping,
 * the median reducer that turns its samples into one figure, and the ping average.
 * Network events arrive as inputs; numbers are exact reals (no `toFixed(2)` rounding).
 */
module SpeedTest {
  import opened Options
  import opened Sorting

  // ---------------------------------------------------------------------------
  // Median reducer (calculateStableSpeed)
  // ---------------------------------------------------------------------------

  /** Median of the samples; zero when there are none. */
  function StableSpeed(samples: seq<real>): (r: real)
    ensures |samples| == 0 ==> r == 0.0
  {
    if |samples| == 0 then 0.0
    else
      var sorted := Sort(samples);
      var mid := |sorted| / 2;
      if |sorted| % 2 != 0 then sorted[mid] else (sorted[mid - 1] + sorted[mid]) / 2.0
  }

  function Min(s: seq<real>): real
    requires |s| > 0
  {
    if |s| == 1 then s[0]
    else
      var m := Min(s[1..]);
      if s[0] <= m then s[0] else m
  }

  function Max(s: seq<real>): real
    requires |s| > 0
  {
    if |s| == 1 then s[0]
    else
      var m := Max(s[1..]);
      if s[0] >= m then s[0] else m
  }

  lemma {:induction false} MinIsLeast(s: seq<real>)
    requires |s| > 0
    ensures Min(s) in s
    ensures forall i :: 0 <= i < |s| ==> Min(s) <= s[i]
  {
    if |s| > 1 {
      MinIsLeast(s[1..]);
      assert forall i :: 1 <= i < |s| ==> s[i] == s[1..][i - 1];
    }
  }

  lemma {:induction false} MaxIsGreatest(s: seq<real>)
    requires |s| > 0
    ensures Max(s) in s
    ensures forall i :: 0 <= i < |s| ==> s[i] <= Max(s)
  {
    if |s| > 1 {
      MaxIsGreatest(s[1..]);
      assert forall i :: 1 <= i < |s| ==> s[i] == s[1..][i - 1];
    }
  }

  /**
   * The median is what any sorted arrangement of the samples gives: its middle
   * element for an odd count, the mean of its two middle elements for an even one.
   */
  lemma MedianOfSortedPermutation(samples: seq<real>, sorted: seq<real>)
    requires |samples| > 0
    requires SortedAsc(sorted) && multiset(sorted) == multiset(samples)
    ensures |sorted| == |samples|
    ensures |samples| % 2 == 1 ==> StableSpeed(samples) == sorted[|samples| / 2]
    ensures |samples| % 2 == 0 ==>
      StableSpeed(samples) == (sorted[|samples| / 2 - 1] + sorted[|samples| / 2]) / 2.0
  {
    assert |sorted| == |multiset(sorted)| == |multiset(samples)| == |samples|;
    SortedUnique(Sort(samples), sorted);
  }

  /** For an odd count the median is one of the samples. */
  lemma MedianIsSampleWhenOdd(samples: seq<real>)
    requires |samples| % 2 == 1
    ensures StableSpeed(samples) in samples
  {
    var sorted := Sort(samples);
    assert sorted[|sorted| / 2] in multiset(samples);
  }

  /** A non-empty sample set's median lies between its minimum and maximum. */
  lemma MedianWithinRange(samples: seq<real>)
    requires |samples| > 0
    ensures Min(samples) <= StableSpeed(samples) <= Max(samples)
  {
    var sorted := Sort(samples);
    MedianOfSortedPermutation(samples, sorted);
    var mid := |sorted| / 2;
    assert sorted[mid] in multiset(sorted);
    SampleWithinRange(samples, sorted[mid]);
    if |sorted| % 2 == 0 {
      assert sorted[mid - 1] in multiset(sorted);
      SampleWithinRange(samples, sorted[mid - 1]);
    }
  }

  lemma SampleWithinRange(samples: seq<real>, x: real)
    requires x in multiset(samples)
    ensures Min(samples) <= x <= Max(samples)
  {
    MinIsLeast(samples);
    MaxIsGreatest(samples);
    var i :| 0 <= i < |samples| && samples[i] == x;
  }

  /** The median does not depend on the order in which samples arrived. */
  lemma MedianIgnoresOrder(a: seq<real>, b: seq<real>)
    requires multiset(a) == multiset(b)
    ensures StableSpeed(a) == StableSpeed(b)
  {
    SortedUnique(Sort(a), Sort(b));
  }

  /** A single sample is its own median. */
  lemma MedianOfOne()
    ensures StableSpeed([5.0]) == 5.0
  {
    MedianOfSortedPermutation([5.0], [5.0]);
  }

  /** Two samples give their mean. */
  lemma MedianOfTwo()
    ensures StableSpeed([8.0, 2.0]) == 5.0
  {
    var sorted := [2.0, 8.0];
    assert SortedAsc(sorted);
    assert multiset([8.0, 2.0]) == multiset(sorted);
    MedianOfSortedPermutation([8.0, 2.0], sorted);
  }

  /** Three samples give the middle one. */
  lemma MedianOfThree()
    ensures StableSpeed([5.0, 1.0, 3.0]) == 3.0
  {
    ThreeSorted();
    MedianOfSortedPermutation([5.0, 1.0, 3.0], [1.0, 3.0, 5.0]);
  }

  lemma ThreeSorted()
    ensures SortedAsc([1.0, 3.0, 5.0])
    ensures multiset([5.0, 1.0, 3.0]) == multiset([1.0, 3.0, 5.0])
  {
    assert multiset([5.0, 1.0, 3.0]) == multiset{5.0, 1.0, 3.0};
    assert multiset([1.0, 3.0, 5.0]) == multiset{1.0, 3.0, 5.0};
  }

  // ---------------------------------------------------------------------------
  // Parallel download progress (runParallelDownload's onprogress handler)
  // ---------------------------------------------------------------------------

  /** Bytes per mebibit divisor: the page reports binary megabits per second. */
  const BytesPerMebi: real := 1048576.0

  /**
   * One progress notification: the endpoint index, the bytes that endpoint has
   * delivered so far, and the seconds elapsed since the test started.
   */
  datatype Progress = Progress(idx: nat, loaded: nat, elapsed: real)

  /** One byte counter per endpoint and the samples collected so far, in arrival order. */
  datatype Download = Download(bytesLoaded: seq<nat>, speeds: seq<real>)

  function Sum(s: seq<nat>): nat {
    if |s| == 0 then 0 else Sum(s[..|s| - 1]) + s[|s| - 1]
  }

  /** Throughput in binary megabits per second for `bytes` over `elapsed` seconds. */
  function Mbps(bytes: nat, elapsed: real): (r: real)
    requires elapsed > 0.0
    ensures r >= 0.0
    ensures r * elapsed * BytesPerMebi == bytes as real * 8.0
  {
    (bytes as real * 8.0 / elapsed) / BytesPerMebi
  }

  /** Ten mebibytes over two seconds is forty megabits per second. */
  lemma MbpsFixture()
    ensures Mbps(10485760, 2.0) == 40.0
  {
  }

  lemma {:induction false} SumOfZeros(s: seq<nat>)
    requires forall k :: 0 <= k < |s| ==> s[k] == 0
    ensures Sum(s) == 0
  {
    if |s| > 0 {
      SumOfZeros(s[..|s| - 1]);
    }
  }

  /** The state right after the test starts: a zero counter per endpoint, no samples. */
  function StartDownload(endpoints: nat): (d: Download)
    ensures |d.bytesLoaded| == endpoints && Sum(d.bytesLoaded) == 0 && d.speeds == []
  {
    var zeros: seq<nat> := seq(endpoints, _ => 0);
    SumOfZeros(zeros);
    Download(zeros, [])
  }

  predicate ValidEvent(d: Download, e: Progress) {
    e.idx < |d.bytesLoaded|
  }

  /** The handler for one progress notification. */
  function OnProgress(d: Download, e: Progress): (r: Download)
    requires ValidEvent(d, e)
    ensures |r.bytesLoaded| == |d.bytesLoaded|
    ensures forall i :: 0 <= i < |d.bytesLoaded| && i != e.idx ==> r.bytesLoaded[i] == d.bytesLoaded[i]
    ensures r.bytesLoaded[e.idx] == if e.loaded > 0 then e.loaded else d.bytesLoaded[e.idx]
    ensures e.elapsed <= 0.0 ==> r.speeds == d.speeds
    ensures e.elapsed > 0.0 ==>
      && |r.speeds| == |d.speeds| + 1
      && r.speeds[..|d.speeds|] == d.speeds
      && r.speeds[|d.speeds|] * e.elapsed * BytesPerMebi == Sum(r.bytesLoaded) as real * 8.0
      && r.speeds[|d.speeds|] >= 0.0
  {
    var counters := if e.loaded > 0 then d.bytesLoaded[e.idx := e.loaded] else d.bytesLoaded;
    var speeds := if e.elapsed > 0.0 then d.speeds + [Mbps(Sum(counters), e.elapsed)] else d.speeds;
    Download(counters, speeds)
  }

  predicate AllFor(endpoints: nat, events: seq<Progress>) {
    forall k :: 0 <= k < |events| ==> events[k].idx < endpoints
  }

  /** The download state after the notifications in `events`, in order. */
  function Replay(d: Download, events: seq<Progress>): (r: Download)
    requires AllFor(|d.bytesLoaded|, events)
    ensures |r.bytesLoaded| == |d.bytesLoaded|
  {
    if |events| == 0 then d
    else
      var prev := Replay(d, events[..|events| - 1]);
      OnProgress(prev, events[|events| - 1])
  }

  /** Number of notifications that arrived after a positive elapsed time. */
  function TimedCount(events: seq<Progress>): nat {
    if |events| == 0 then 0
    else TimedCount(events[..|events| - 1]) + (if events[|events| - 1].elapsed > 0.0 then 1 else 0)
  }

  predicate PositiveFor(e: Progress, i: nat) {
    e.idx == i && e.loaded > 0
  }

  /**
   * Samples are only ever appended: one per timed notification, and the
   * samples that were there before stay where they were.
   */
  lemma {:induction false} ReplayAppendsSamples(d: Download, events: seq<Progress>)
    requires AllFor(|d.bytesLoaded|, events)
    ensures |Replay(d, events).speeds| == |d.speeds| + TimedCount(events)
    ensures Replay(d, events).speeds[..|d.speeds|] == d.speeds
  {
    if |events| > 0 {
      var init := events[..|events| - 1];
      assert AllFor(|d.bytesLoaded|, init);
      ReplayAppendsSamples(d, init);
      var prev := Replay(d, init);
      assert prev.speeds[..|d.speeds|] == d.speeds;
      var r := Replay(d, events);
      assert r == OnProgress(prev, events[|events| - 1]);
      assert r.speeds[..|prev.speeds|] == prev.speeds;
      assert r.speeds[..|d.speeds|] == r.speeds[..|prev.speeds|][..|d.speeds|];
    }
  }

  /** An endpoint's counter holds the `loaded` of its latest positive notification. */
  lemma {:induction false} ReplayCounterIsLatest(d: Download, events: seq<Progress>, i: nat, k: nat)
    requires AllFor(|d.bytesLoaded|, events)
    requires i < |d.bytesLoaded|
    requires k < |events| && PositiveFor(events[k], i)
    requires forall k' :: k < k' < |events| ==> !PositiveFor(events[k'], i)
    ensures Replay(d, events).bytesLoaded[i] == events[k].loaded
  {
    var init := events[..|events| - 1];
    assert AllFor(|d.bytesLoaded|, init);
    if k < |events| - 1 {
      ReplayCounterIsLatest(d, init, i, k);
    }
  }

  /** An endpoint with no positive notification keeps its starting counter. */
  lemma {:induction false} ReplayCounterUntouched(d: Download, events: seq<Progress>, i: nat)
    requires AllFor(|d.bytesLoaded|, events)
    requires i < |d.bytesLoaded|
    requires forall k :: 0 <= k < |events| ==> !PositiveFor(events[k], i)
    ensures Replay(d, events).bytesLoaded[i] == d.bytesLoaded[i]
  {
    if |events| > 0 {
      var init := events[..|events| - 1];
      assert AllFor(|d.bytesLoaded|, init);
      ReplayCounterUntouched(d, init, i);
    }
  }

  /**
   * The whole download phase, as the page runs it: start with zero counters,
   * handle every notification in turn, and hand back the collected samples.
   */
  method RunParallelDownload(endpoints: nat, events: seq<Progress>) returns (counters: seq<nat>, speeds: seq<real>)
    requires AllFor(endpoints, events)
    ensures |counters| == endpoints
    ensures |speeds| == TimedCount(events)
    ensures forall k :: 0 <= k < |speeds| ==> speeds[k] >= 0.0
    ensures Download(counters, speeds) == Replay(StartDownload(endpoints), events)
  {
    var d := StartDownload(endpoints);
    var i := 0;
    while i < |events|
      invariant 0 <= i <= |events|
      invariant d == Replay(StartDownload(endpoints), events[..i])
      invariant |d.bytesLoaded| == endpoints
      invariant |d.speeds| == TimedCount(events[..i])
      invariant forall k :: 0 <= k < |d.speeds| ==> d.speeds[k] >= 0.0
    {
      assert events[..i + 1][..i] == events[..i];
      d := OnProgress(d, events[i]);
      i := i + 1;
    }
    assert events[..|events|] == events;
    counters, speeds := d.bytesLoaded, d.speeds;
  }

  // ---------------------------------------------------------------------------
  // Ping average (pingTest)
  // ---------------------------------------------------------------------------

  /** Milliseconds charged to an attempt that failed. */
  const FailedPingMs: real := 999.0

  /** The number of attempts the page makes. */
  const DefaultPingCount: nat := 5

  /** One ping attempt: the measured round trip, or a failure. */
  datatype PingAttempt = Replied(roundTripMs: real) | Failed

  function AttemptMs(a: PingAttempt): real {
    match a
    case Replied(ms) => ms
    case Failed => FailedPingMs
  }

  function SumReal(s: seq<real>): real {
    if |s| == 0 then 0.0 else SumReal(s[..|s| - 1]) + s[|s| - 1]
  }

  function Mean(s: seq<real>): real
    requires |s| > 0
  {
    SumReal(s) / |s| as real
  }

  /** `Math.round`: the nearest integer, halves rounded up. */
  function RoundHalfUp(x: real): (r: int)
    ensures r as real - 0.5 <= x < r as real + 0.5
  {
    (x + 0.5).Floor
  }

  /**
   * Records one time per attempt, 999 for each failure, and rounds their mean.
   * With no attempts the source divides zero by zero; that `NaN` is `None` here.
   */
  method PingTest(attempts: seq<PingAttempt>) returns (times: seq<real>, avg: Option<int>)
    ensures |times| == |attempts|
    ensures forall i :: 0 <= i < |attempts| ==>
      times[i] == (if attempts[i].Failed? then FailedPingMs else attempts[i].roundTripMs)
    ensures |attempts| == 0 <==> avg == None
    ensures |attempts| > 0 ==> avg.Some? && avg.value as real - 0.5 <= Mean(times) < avg.value as real + 0.5
  {
    times := [];
    var i := 0;
    while i < |attempts|
      invariant 0 <= i <= |attempts|
      invariant |times| == i
      invariant forall k :: 0 <= k < i ==> times[k] == AttemptMs(attempts[k])
    {
      times := times + [AttemptMs(attempts[i])];
      i := i + 1;
    }
    if |times| == 0 {
      avg := None;
    } else {
      avg := Some(RoundHalfUp(Mean(times)));
    }
  }

  lemma {:induction false} SumOfConstant(s: seq<real>, c: real)
    requires forall k :: 0 <= k < |s| ==> s[k] == c
    ensures SumReal(s) == |s| as real * c
  {
    if |s| > 0 {
      SumOfConstant(s[..|s| - 1], c);
    }
  }

  /** When every attempt fails the reported ping is exactly 999. */
  lemma AllFailedPingIs999(times: seq<real>)
    requires |times| > 0
    requires forall k :: 0 <= k < |times| ==> times[k] == FailedPingMs
    ensures RoundHalfUp(Mean(times)) == 999
  {
    SumOfConstant(times, FailedPingMs);
    var n := |times| as real;
    assert Mean(times) == (n * FailedPingMs) / n == FailedPingMs;
    assert RoundHalfUp(FailedPingMs) == 999;
  }
}

=== FILE: sweep.dfy ===
/**
 * The game loop's "update every entity, then drop the inactive ones" sweeps.
 * The loops walk the list backwards and `splice` out each inactive entry; the
 * reference meaning of such a sweep is `Filter` applied to the updated list.
 */
module Sweep {

  /** Applies `f` to every entry. */
  function MapSeq<T>(s: seq<T>, f: T -> T): (r: seq<T>)
    ensures |r| == |s|
    ensures forall i :: 0 <= i < |s| ==> r[i] == f(s[i])
  {
    seq(|s|, i requires 0 <= i < |s| => f(s[i]))
  }

  /** The entries satisfying `keep`, in their original order. */
  function Filter<T>(s: seq<T>, keep: T -> bool): (r: seq<T>)
    ensures |r| <= |s|
    ensures forall i :: 0 <= i < |r| ==> keep(r[i])
  {
    if |s| == 0 then []
    else (if keep(s[0]) then [s[0]] else []) + Filter(s[1..], keep)
  }

  /** The survivors are exactly the entries of `s` that satisfy `keep`. */
  lemma {:induction false} FilterMembers<T>(s: seq<T>, keep: T -> bool)
    ensures forall i :: 0 <= i < |Filter(s, keep)| ==> Filter(s, keep)[i] in s
    ensures forall i :: 0 <= i < |s| && keep(s[i]) ==> s[i] in Filter(s, keep)
  {
    if |s| > 0 {
      FilterMembers(s[1..], keep);
      assert forall i :: 1 <= i < |s| ==> s[i] == s[1..][i - 1];
    }
  }

  /** Filtering distributes over concatenation, so survivors keep their relative order. */
  lemma {:induction false} FilterConcat<T>(a: seq<T>, b: seq<T>, keep: T -> bool)
    ensures Filter(a + b, keep) == Filter(a, keep) + Filter(b, keep)
  {
    if |a| > 0 {
      assert (a + b)[0] == a[0];
      assert (a + b)[1..] == a[1..] + b;
      FilterConcat(a[1..], b, keep);
    } else {
      assert a + b == b;
    }
  }

  /** A sweep over entries that are all alive removes nothing. */
  lemma {:induction false} FilterKeepsAllAlive<T>(s: seq<T>, keep: T -> bool)
    requires forall i :: 0 <= i < |s| ==> keep(s[i])
    ensures Filter(s, keep) == s
  {
    if |s| > 0 {
      FilterKeepsAllAlive(s[1..], keep);
    }
  }

  /**
   * Exactly the dead entries go: every alive entry keeps its multiplicity,
   * every dead one drops to zero.
   */
  lemma {:induction false} FilterCounts<T>(s: seq<T>, keep: T -> bool, x: T)
    ensures multiset(Filter(s, keep))[x] == if keep(x) then multiset(s)[x] else 0
  {
    if |s| > 0 {
      FilterCounts(s[1..], keep, x);
      var head := if keep(s[0]) then [s[0]] else [];
      assert Filter(s, keep) == head + Filter(s[1..], keep);
      assert multiset(Filter(s, keep)) == multiset(head) + multiset(Filter(s[1..], keep));
      assert s == [s[0]] + s[1..];
      assert multiset(s) == multiset{s[0]} + multiset(s[1..]);
    }
  }

  /** Sweeping twice is the same as sweeping once. */
  lemma FilterIdempotent<T>(s: seq<T>, keep: T -> bool)
    ensures Filter(Filter(s, keep), keep) == Filter(s, keep)
  {
    FilterKeepsAllAlive(Filter(s, keep), keep);
  }

  /** One step of a sweep from the back: entry `i` is kept or dropped in front of the rest. */
  lemma FilterStep<T>(s: seq<T>, i: nat, keep: T -> bool)
    requires i < |s|
    ensures Filter(s[i..], keep) == (if keep(s[i]) then [s[i]] else []) + Filter(s[i + 1..], keep)
  {
    assert s[i..][1..] == s[i + 1..];
  }

  /** Splicing at `i` when everything after `i` is already swept: replace or drop entry `i`. */
  lemma Splice<T>(s: seq<T>, kept: seq<T>, i: nat, x: T)
    requires i < |s|
    ensures (s[..i + 1] + kept)[i] == s[i]
    ensures (s[..i + 1] + kept)[..i] + [x] + (s[..i + 1] + kept)[i + 1..] == s[..i] + ([x] + kept)
    ensures (s[..i + 1] + kept)[..i] + (s[..i + 1] + kept)[i + 1..] == s[..i] + kept
  {
    var r := s[..i + 1] + kept;
    assert r[..i] == s[..i];
    assert r[i + 1..] == kept;
  }

  /**
   * The source's loop: walking from the last entry to the first, update the
   * entry in place, then splice it out when it is no longer alive.
   */
  method SweepInPlace<T>(s: seq<T>, update: T -> T, alive: T -> bool) returns (r: seq<T>)
    ensures r == Filter(MapSeq(s, update), alive)
  {
    ghost var updated := MapSeq(s, update);
    ghost var kept: seq<T> := [];
    r := s;
    var i := |s|;
    while i > 0
      invariant 0 <= i <= |s|
      invariant kept == Filter(updated[i..], alive)
      invariant r == s[..i] + kept
    {
      i := i - 1;
      var x := update(r[i]);
      Splice(s, kept, i, x);
      FilterStep(updated, i, alive);
      if alive(x) {
        r := r[..i] + [x] + r[i + 1..];
        kept := [x] + kept;
      } else {
        r := r[..i] + r[i + 1..];
      }
    }
  }
}
